=== FILE: README.md ===
# nesdis_aws workplan engine, in Dafny

This project models the `AwsQuery` class of `nesdis_aws`. The class searches
the public NOAA GOES bucket for the files of one product, scan sector and time
window, and downloads them. The model covers five parts:

- **Key layout** (`key_layout.dfy`, with `calendar.dfy` and `text.dfy`). This covers:
  - day-of-year numbers and their calendar dates, including leap years;
  - the folder layout `noaa-goes<sat>/<product><sector>/<year>/<ddd>/<hour>/`;
  - the start-of-scan token `s<YYYY><DDD><HH><MM><SS><tenth>` in every file name, and how `row2timestamp` decodes it.
- **The workplan** (`workplan.dfy`). The getter:
  - lists every hour folder of every day between the start's and the end's day-of-year, under the start's year folder;
  - derives each key's local path;
  - drops the keys whose local file exists;
  - decodes the remaining keys' times, sorts the rows and truncates them to [start, end].
- **The disk budget** (`budget.dfy`). It samples every k-th row and extrapolates the mean size to the whole plan. It then computes the volume's projected *used* percentage, which the source stores under the key `disk_space_free_after_download`.
- **The download loop** (`download.dfy`). It walks the plan in order and skips rows whose local file exists, unless `overwrite` is set. In `test` mode it stops after the first fetch. It returns the last fetch.
- **`product_available_since`** (`available_since.dfy`). It takes the first sorted year folder not named `2000`, then that year's first day folder.

`aws_query.dfy` puts these parts together as the class `Query.AwsQuery`. Its fields:

- the query settings;
- the `_workplan` cache, an `Option<seq<Entry>>`;
- the bucket as a `Remote.Catalog`, i.e. what each glob pattern lists and how many bytes each object holds;
- the local disk as the set of existing file paths;
- the volume's used and total bytes;
- the record of fetches.

Several methods are loops, as in the source:

- the getter's nested listing loops;
- the download loop with `continue` and `break`;
- the `pop(0)` loop over the year folders.

Each of them is proved against a function. The properties are proved as lemmas about those functions.

The plan lemmas in `workplan.dfy` take the file-name decoder as a parameter, so they hold for any `row2timestamp`. The getter and `Workplan.BuildWorkplan` pass `KeyLayout.DecodeName`.

The settings that `__init__` assigns and no method reassigns are constant fields: satellite, sector, start, end, local folder and bucket. The volume's used and total bytes are also constant fields. The source reads them from `psutil.disk_usage` inside `estimate_disk_usage`, on every call (`nesdis_aws/nesdis_aws.py:133`). The model treats the volume as fixed for the life of a query (see "Left out"). The product, the cache, the local disk and the fetch record are mutable fields.

Two behaviours of the code are stated rather than corrected.

- The year folder always comes from the start's year (`nesdis_aws/nesdis_aws.py:152`). A window that crosses New Year lists the wrong days or none (`KeyLayout.CrossYearListsNothing`).
- The listing is day-granular: every hour folder of each listed day is globbed, and the truncation removes what lies outside the window.

Three further facts about the code, which the model keeps:

- the product setter silently strips one trailing sector letter and raises no error for it (`nesdis_aws/nesdis_aws.py:102-107`);
- the low-disk guard compares the projected *used* percentage, stored under `disk_space_free_after_download`, with 90 (`nesdis_aws/nesdis_aws.py:134` and `:221`);
- a plan is computed once and cached; only `workplan`'s setter replaces it.

## Model

| member | source | states |
|---|---|---|
| Text.Pad | nesdis_aws/nesdis_aws.py:155 | the `w`-digit spelling of a number: exactly `w` decimal digits; with PadLowDigits and ParsePad, its low `w` digits, the number itself when below 10^w |
| Text.ParsePad | nesdis_aws/nesdis_aws.py:155 | a number below 10^w read back from its `w`-digit padding is itself |
| Text.PadLowDigits | nesdis_aws/nesdis_aws.py:155 | the `w`-digit padding of any number reads back as the number modulo 10^w |
| Text.Decimal | nesdis_aws/nesdis_aws.py:152 | `f'{year}'`: a non-empty digit string that reads back as the number, with no leading zero unless it is "0" |
| Text.LeadingDigit | nesdis_aws/nesdis_aws.py:152 | the shortest spelling of a positive number starts with a non-zero digit; zero is spelt "0" |
| Text.PadDecimal | nesdis_aws/nesdis_aws.py:155 | a number padded to at least `w` digits reads back as itself, and equals the `w`-digit padding when it fits |
| Text.Split | nesdis_aws/nesdis_aws.py:178 | `str.split(sep)`: at least one part, and no part contains the separator |
| Text.SplitSnoc | nesdis_aws/nesdis_aws.py:178 | splitting `a + sep + b` (with no separator in `b`) gives the parts of `a` followed by `b` |
| Text.Basename | nesdis_aws/nesdis_aws.py:157 | `split('/')[-1]`: the last path component, free of '/' |
| Text.BasenameOfJoin | nesdis_aws/nesdis_aws.py:168 | the basename of `dir/name` is `name` |
| Text.StrLeTotal | nesdis_aws/nesdis_aws.py:201 | Python's string order is total |
| Text.StrLeTransitive | nesdis_aws/nesdis_aws.py:201 | Python's string order is transitive |
| Text.StrLeAntisymmetric | nesdis_aws/nesdis_aws.py:201 | two strings each at most the other are equal |
| Text.SortStrings | nesdis_aws/nesdis_aws.py:201 | `list.sort()` on strings: sorted and a permutation of its input |
| Calendar.DayOfYear | nesdis_aws/nesdis_aws.py:144-145 | days since 1 January plus one lies in 1 .. days of the year |
| Calendar.DateOfDayOfYear | nesdis_aws/nesdis_aws.py:144-145 | a valid date of the given year whose day-of-year is the given number |
| Calendar.DateRoundTrip | nesdis_aws/nesdis_aws.py:144-145 | date to day-of-year to date is the identity |
| Calendar.YearLength | nesdis_aws/nesdis_aws.py:144-145 | the month lengths add up to 366 in a leap year and 365 otherwise |
| Calendar.LeapYearDay220 | nesdis_aws/nesdis_aws.py:180 | day 220 of 2020 is 7 August |
| Calendar.CommonYearDay220 | nesdis_aws/nesdis_aws.py:180 | day 220 of 2021 is 8 August |
| Calendar.DayOfYearOrder | nesdis_aws/nesdis_aws.py:144-145 | within a year, day-of-year order is (month, day) order, and equal days-of-year mean equal dates |
| KeyLayout.StampOf | nesdis_aws/nesdis_aws.py:187 | the start and end timestamps as (year, day-of-year, h, m, s), valid, same year |
| KeyLayout.StampOfOrder | nesdis_aws/nesdis_aws.py:187 | two timestamps' stamps are ordered iff the timestamps are in (year, month, day, hour, minute, second) order |
| KeyLayout.DateTimeOf | nesdis_aws/nesdis_aws.py:180 | a decoded stamp is a valid timestamp mapping back to the stamp |
| KeyLayout.DateTimeRoundTrip | nesdis_aws/nesdis_aws.py:180 | timestamp to stamp to timestamp is the identity |
| KeyLayout.ParseTimeToken | nesdis_aws/nesdis_aws.py:180 | `%Y%j%H%M%S`: success yields a valid stamp; failure names the token |
| KeyLayout.StartToken | nesdis_aws/nesdis_aws.py:178-179 | succeeds iff the name has at least three '_' parts and the third from last starts with 's', which it returns; else MalformedKey |
| KeyLayout.TimeToken | nesdis_aws/nesdis_aws.py:180 | the encoding of a stamp is 13 digits |
| KeyLayout.DecodeName | nesdis_aws/nesdis_aws.py:177-181 | `row2timestamp` on a file name: a missing start token fails with MalformedKey naming the file; otherwise the result is exactly the parse of the token's 13 inner characters, so a token that does not parse fails with BadTimestamp and success is a valid stamp |
| KeyLayout.DecodeToken | nesdis_aws/nesdis_aws.py:178-180 | a name `<head>_s…_<e>_<c>` decodes exactly as its start token's inner characters parse; with TokenAccepted, it decodes iff they are 13 digits in range |
| KeyLayout.DecodeRejectsBadTimestamp | nesdis_aws/nesdis_aws.py:180 | a well-formed name whose encoded day, hour, minute or second is out of range fails with BadTimestamp, which aborts the whole plan (Workplan.PlanFailsFast) |
| KeyLayout.TokenFields | nesdis_aws/nesdis_aws.py:180 | the year, day-of-year, hour, minute and second fields of an encoded stamp read back as its fields |
| KeyLayout.TokenRoundTrip | nesdis_aws/nesdis_aws.py:180 | parsing an encoded valid stamp (four-digit year) gives the stamp back |
| KeyLayout.TokenAccepted | nesdis_aws/nesdis_aws.py:180 | a token parses iff it is 13 digits with day-of-year 1..366, hour ≤ 23, minute ≤ 59 and second ≤ 59 |
| KeyLayout.TokenRejects | nesdis_aws/nesdis_aws.py:180 | an encoded day-of-year 0 or above 366, hour above 23, minute or second above 59 fails with BadTimestamp naming the token |
| KeyLayout.TokenRollover | nesdis_aws/nesdis_aws.py:180 | day 366 of a common year parses as 1 January of the next year, as pandas reads `%j` |
| KeyLayout.NameRoundTrip | nesdis_aws/nesdis_aws.py:177-181 | any file name `<head>_s<token><tenth>_<e>_<c>` decodes to the encoded stamp |
| KeyLayout.DecodeRejectsMissingS | nesdis_aws/nesdis_aws.py:179 | a third-from-last token not starting with 's' fails with MalformedKey |
| KeyLayout.DecodeRejectsShortName | nesdis_aws/nesdis_aws.py:178 | a name with no '_' fails with MalformedKey |
| KeyLayout.DecodeAerosolExample | nesdis_aws/nesdis_aws.py:177-181 | `OR_ABI-L2-AOD-M6_G16_s20202202000000_…` decodes to 2020-08-07 20:00:00 |
| KeyLayout.DayFolderLayout | nesdis_aws/nesdis_aws.py:150-155 | a day folder is `<year folder>/<ddd>` with a three-digit name reading back as the day |
| KeyLayout.ProductFolder | nesdis_aws/nesdis_aws.py:83 | `noaa-goes<sat>/<product><sector>`, the folder the getter and `product_available_since` start from (:149-150, :199); DayFolderLayout and WorkplanSound use it |
| KeyLayout.YearFolder | nesdis_aws/nesdis_aws.py:152 | the year folder's last component is the unpadded year, and it reads back as the year |
| KeyLayout.DayFolder | nesdis_aws/nesdis_aws.py:155 | `<year folder>/<ddd>`; DayFolderLayout states its last component is the three-digit day reading back as the day |
| KeyLayout.DayRange | nesdis_aws/nesdis_aws.py:146 | `range(lo, hi + 1)`: hi − lo + 1 consecutive days from lo |
| KeyLayout.ListedDaysExact | nesdis_aws/nesdis_aws.py:144-146 | a day is listed iff it lies between the start's and the end's day-of-year |
| KeyLayout.CrossYearListsNothing | nesdis_aws/nesdis_aws.py:144-152 | a window crossing New Year whose end day-of-year is below the start's lists no day |
| Workplan.HourNames | nesdis_aws/nesdis_aws.py:156-157 | one hour name per listed child of the day folder, its basename |
| Workplan.HourKeys | nesdis_aws/nesdis_aws.py:159-163 | the inner glob loop over one day's hour folders; HourKeysOrigin says which keys it lists, and Query.AwsQuery.ListDay is the loop proved equal to it |
| Workplan.ListedKeys | nesdis_aws/nesdis_aws.py:154-163 | `files_available`; ListedKeysLast and ListedKeysOrigin say which keys it holds, and Query.AwsQuery.ListFiles is the loop proved equal to it |
| Workplan.HourKeysOrigin | nesdis_aws/nesdis_aws.py:159-163 | a key is in a day's keys iff some listed hour folder's glob lists it |
| Workplan.ListedKeysLast | nesdis_aws/nesdis_aws.py:154-163 | the last listed day adds exactly the keys listed under its own hour folders |
| Workplan.ListedKeysOrigin | nesdis_aws/nesdis_aws.py:154-163 | a key is in `files_available` iff it is listed under an hour folder of a listed day |
| Workplan.LocalPath | nesdis_aws/nesdis_aws.py:168 | the local path has the remote key's basename |
| Workplan.Fresh | nesdis_aws/nesdis_aws.py:171 | keeps exactly the keys whose local file does not exist |
| Workplan.FreshCounts | nesdis_aws/nesdis_aws.py:171 | a key occurs in the kept keys as often as in the listing when its local file is absent, and never otherwise |
| Workplan.DecodeAll | nesdis_aws/nesdis_aws.py:183 | succeeds iff every kept key decodes; then there is one row per key, row i carrying key i, its local path and its decoded time |
| Workplan.Insert | nesdis_aws/nesdis_aws.py:186 | inserting into a time-sorted sequence keeps it sorted and adds the row |
| Workplan.SortByTime | nesdis_aws/nesdis_aws.py:186 | `sort_index()`: sorted by time and a permutation of the rows |
| Workplan.Window | nesdis_aws/nesdis_aws.py:187 | keeps exactly the rows with start ≤ time ≤ end, preserving sortedness |
| Workplan.WindowCounts | nesdis_aws/nesdis_aws.py:187 | a row in [start, end] occurs as often as in the input, a row outside not at all |
| Workplan.Truncate | nesdis_aws/nesdis_aws.py:187 | `truncate(start, end)`: fails with BadRange iff end is before start; otherwise keeps exactly the rows in [start, end], sorted when its input is |
| Workplan.BuildPlan | nesdis_aws/nesdis_aws.py:165-187 | the getter's pipeline from the listed keys: pinned by DecodedEntry, PlanSound, PlanComplete, PlanFailsFast, FreshCounts and WindowCounts |
| Workplan.DecodedEntry | nesdis_aws/nesdis_aws.py:167-183 | a row is decoded iff its key is listed, has no local file, and decodes to the row's time |
| Workplan.PlanSound | nesdis_aws/nesdis_aws.py:167-187 | a built plan is sorted; each row comes from a listed key, has no local file, keeps the basename, carries the decoded time and lies in [start, end] |
| Workplan.PlanComplete | nesdis_aws/nesdis_aws.py:167-187 | every listed key with no local file, a decodable name and a time in [start, end] is in the plan |
| Workplan.PlanFailsFast | nesdis_aws/nesdis_aws.py:177-187 | the build fails iff a kept key does not decode or start is after end; no partial plan |
| Workplan.LocalFileHidesEntry | nesdis_aws/nesdis_aws.py:171 | an existing local file hides its row, and the row returns once the file is removed |
| Workplan.RemovingFileKeepsBuild | nesdis_aws/nesdis_aws.py:171-183 | removing the local file of a decodable key cannot make a successful build fail |
| Workplan.BuildWorkplan | nesdis_aws/nesdis_aws.py:140-189 | the getter's plan from the bucket, the local disk and the query's window; pinned by WorkplanSound and WorkplanWithinWindow, and by the BuildPlan lemmas |
| Workplan.WorkplanSound | nesdis_aws/nesdis_aws.py:140-189 | every row of the getter's plan was listed under a day between the two days-of-year in the start's year folder, and lies in [start, end] |
| Workplan.WorkplanWithinWindow | nesdis_aws/nesdis_aws.py:140-189 | every row's decoded time is a valid timestamp between start and end in calendar order |
| Budget.Stride | nesdis_aws/nesdis_aws.py:125-127 | `max(1, int(N / sample_size))`: at least 1, and ⌊N / s⌋ when N ≥ s > 0 |
| Budget.EveryKthLength | nesdis_aws/nesdis_aws.py:128 | `iloc[::k]` has ⌈N / k⌉ rows |
| Budget.EveryKthAt | nesdis_aws/nesdis_aws.py:128 | sampled row i is plan row i·k |
| Budget.EveryKth | nesdis_aws/nesdis_aws.py:128 | `iloc[::k]`; EveryKthLength, EveryKthAt and SampleWithinPlan pin its length, its rows and their origin |
| Budget.SampleWithinPlan | nesdis_aws/nesdis_aws.py:128 | every sampled row is a plan row |
| Budget.SampledBytesBounds | nesdis_aws/nesdis_aws.py:128-130 | the sampled bytes lie between n·min and n·max object size |
| Budget.ExtrapolateBetween | nesdis_aws/nesdis_aws.py:130 | a mean between the extremes extrapolates to a total between N·min and N·max |
| Budget.Estimate | nesdis_aws/nesdis_aws.py:124-138 | fails exactly on a zero sample size (ZeroDivisionError) |
| Budget.EstimateDefined | nesdis_aws/nesdis_aws.py:130-134 | the need is a number iff the plan has rows; the percentage iff also the volume has bytes |
| Budget.EmptyPlanFailsGuard | nesdis_aws/nesdis_aws.py:219-221 | an empty plan's NaN estimate never passes the guard |
| Budget.GuardPasses | nesdis_aws/nesdis_aws.py:221 | the guard's `< 90` on the projected percentage, false on NaN; GuardMeaning and EmptyPlanFailsGuard state when it holds |
| Budget.NeededBetweenExtremes | nesdis_aws/nesdis_aws.py:128-130 | the estimate lies between N·min and N·max object size |
| Budget.GuardMeaning | nesdis_aws/nesdis_aws.py:219-221 | on a non-empty plan the guard passes iff used + needed < 90 % of the total |
| Transfer.LocalsOfMembers | nesdis_aws/nesdis_aws.py:228 | the written paths are exactly the fetched rows' local paths |
| Transfer.Transfers | nesdis_aws/nesdis_aws.py:223-230 | the rows the download loop fetches; TransfersFollowPlan, TransfersFromPlan, NoOverwriteKeepsFiles, TestFetchesOne, OverwriteFetchesAll and FullRunCompletes pin it, and Query.FetchRows is the loop proved equal to it |
| Transfer.LastFetch | nesdis_aws/nesdis_aws.py:228-231 | `out` is the final element of the fetch record; an empty record leaves it unbound (NothingFetched) |
| Transfer.TransfersFollowPlan | nesdis_aws/nesdis_aws.py:223-228 | the fetches are a subsequence of the plan: in plan order |
| Transfer.TransfersFromPlan | nesdis_aws/nesdis_aws.py:223 | every fetched row is a plan row |
| Transfer.NoOverwriteKeepsFiles | nesdis_aws/nesdis_aws.py:224-226 | without overwrite no existing file is fetched and no path is fetched twice |
| Transfer.TestFetchesOne | nesdis_aws/nesdis_aws.py:229-230 | test mode fetches at most one row, and none iff every row is skipped |
| Transfer.OverwriteFetchesAll | nesdis_aws/nesdis_aws.py:223-228 | with overwrite and no test, every row is fetched in order |
| Transfer.FullRunCompletes | nesdis_aws/nesdis_aws.py:223-228 | after a full run every row's local file exists |
| Availability.FirstYearFolder | nesdis_aws/nesdis_aws.py:203-209 | finds none iff every listed year folder is named 2000 |
| Availability.FirstYearFolderPosition | nesdis_aws/nesdis_aws.py:203-209 | the folder found is listed, not named 2000, and every folder before it is |
| Availability.FirstYearIsLeast | nesdis_aws/nesdis_aws.py:200-209 | in the sorted listing it is the least folder not named 2000 |
| Availability.FolderNumber | nesdis_aws/nesdis_aws.py:214 | `int(name)` succeeds iff the name is non-empty digits, with their value |
| Availability.FolderYear | nesdis_aws/nesdis_aws.py:215 | `to_datetime(name)` on a four-digit year, with its value |
| Availability.FindOrigin | nesdis_aws/nesdis_aws.py:199-214 | the chosen year folder, its year and its first day folder's number, or the failure met first; with a year folder it fails with NoDayFolder iff that folder lists no day, and succeeds iff the first day folder and the year folder both parse |
| Availability.NextDay | nesdis_aws/nesdis_aws.py:215 | the next calendar day: day-of-year plus one, or 1 January after the year's last day |
| Availability.DateAtOffset | nesdis_aws/nesdis_aws.py:215 | `to_datetime(year) + to_timedelta(off, 'D')`: a valid date; DateAtOffsetStep says each extra day is the next calendar day |
| Availability.DateAtOffsetStep | nesdis_aws/nesdis_aws.py:215 | counting one more day from 1 January lands on the next day |
| Availability.SinceAsWritten | nesdis_aws/nesdis_aws.py:215 | 1 January plus `firstday` days is a valid midnight date |
| Availability.Since | nesdis_aws/nesdis_aws.py:215 | the corrected date has the year folder's year and the day folder's day-of-year |
| Availability.AsWrittenIsNextDay | nesdis_aws/nesdis_aws.py:215 | the source's date is always the day after the first day folder's date |
| Availability.FirstOfJanuaryExample | nesdis_aws/nesdis_aws.py:215 | day folder 001 gives 2 January as written, 1 January corrected |
| Availability.AvailableSinceAsWritten | nesdis_aws/nesdis_aws.py:197-216 | the source's result on the bucket, or the listing failure |
| Availability.AvailableSince | nesdis_aws/nesdis_aws.py:197-216 | the corrected result on the bucket, or the listing failure |
| Query.StripSector | nesdis_aws/nesdis_aws.py:102-107 | empty name fails; otherwise a prefix of the name at most one shorter, the missing part being the sector |
| Query.SectorSuffixOptional | nesdis_aws/nesdis_aws.py:102-107 | the product with or without a trailing sector letter is stored the same |
| Query.StripsOneLetter | nesdis_aws/nesdis_aws.py:104-105 | only one trailing sector letter is removed |
| Query.AwsQuery.constructor | nesdis_aws/nesdis_aws.py:36-96 | settings stored, product through the setter, no cached plan |
| Query.AwsQuery.SetProduct | nesdis_aws/nesdis_aws.py:102-107 | the product becomes the stripped value; an empty value fails and changes nothing |
| Query.AwsQuery.CurrentPlan | nesdis_aws/nesdis_aws.py:141-142 | what the getter returns: the cached plan when there is one, else BuildWorkplan on the current settings; GetWorkplan returns it |
| Query.AwsQuery.CacheAfterGet | nesdis_aws/nesdis_aws.py:141-189 | the cache after one getter call: kept when set, else the built plan on success and still empty on failure; GetWorkplan leaves it |
| Query.AwsQuery.ListDay | nesdis_aws/nesdis_aws.py:156-163 | the inner loop collects the keys of every hour folder of the day, in order |
| Query.AwsQuery.ListFiles | nesdis_aws/nesdis_aws.py:153-163 | the outer loop collects `files_available` for the listed days |
| Query.AwsQuery.GetWorkplan | nesdis_aws/nesdis_aws.py:140-190 | returns the cached plan unchanged, else builds it and caches it on success; the next call returns the same |
| Query.AwsQuery.SetWorkplan | nesdis_aws/nesdis_aws.py:193-195 | the cache becomes the given plan |
| Query.AwsQuery.EstimateOnPlan | nesdis_aws/nesdis_aws.py:124-138 | a plan that cannot be built fails the estimate with its error; on a plan only a zero sample size fails |
| Query.AwsQuery.EstimateDiskUsage | nesdis_aws/nesdis_aws.py:124-138 | the estimate on the getter's plan, or the plan's failure |
| Query.AwsQuery.DownloadPlan | nesdis_aws/nesdis_aws.py:219-223 | a plan failure is passed on; with a plan, the result is the plan iff the guard is off or passes on the estimate, and otherwise LowDiskSpace |
| Query.AwsQuery.GuardStopsDownload | nesdis_aws/nesdis_aws.py:219-221 | with the guard on, a non-empty plan whose used + needed bytes reach 90 % of the total stops with LowDiskSpace |
| Query.AwsQuery.GuardLetsPlanThrough | nesdis_aws/nesdis_aws.py:219-223 | with the guard off, or a non-empty plan below 90 %, the download walks the plan |
| Query.AwsQuery.GuardedPlan | nesdis_aws/nesdis_aws.py:219-223 | the guard, then the getter: the rows to walk, or the reason to stop |
| Query.FetchRows | nesdis_aws/nesdis_aws.py:223-231 | the loop fetches exactly `Transfers` of the rows, adds their files to the disk, records them and returns the last |
| Query.AwsQuery.Fetch | nesdis_aws/nesdis_aws.py:223-231 | the disk and the fetch record become those the loop leaves |
| Query.AwsQuery.Download | nesdis_aws/nesdis_aws.py:218-231 | a guard or plan failure fetches nothing; otherwise exactly the `Transfers` of the plan are fetched |
| Query.AwsQuery.ProductAvailableSince | nesdis_aws/nesdis_aws.py:197-216 | the pop loop and folder reads give the corrected `AvailableSince` |

## Left out

- The S3 client is left out. `aws.glob`, `aws.disk_usage` and `aws.get` act on a fixed `Catalog` snapshot, and `clear_instance_cache` is not modelled. The listing never changes during a query.
- A failing `aws.get` or glob (network errors) is not modelled. A fetch always succeeds: it adds the local path to the disk and records the row.
- `psutil.disk_usage` is read on every `estimate_disk_usage` call in the source. Here it becomes the constant `used` and `total` fields: changes to the volume between calls, and by the download itself, are not modelled.
- Float arithmetic is modelled as exact reals, with NaN and infinity as `NotFinite`. Rounding of the mean and the percentage is not modelled. `int(N / sample_size)` is modelled as integer division, which is exact for plan sizes below 2^53.
- Query.AwsQuery.constructor: requires a non-empty product. The source's setter would raise IndexError there.
- Query.AwsQuery.constructor: takes start and end as already-parsed timestamps. Parsing strings with `pd.to_datetime` is not modelled. `no_of_days`, `last_x_days` and `max_no_of_files` are unused by the source and not modelled.
- Paths are joined with '/' as plain strings. `pathlib` normalisation is not modelled, e.g. collapsing the default local folder's trailing slash.
- KeyLayout.ParseTimeToken: requires exactly 13 digits. `strptime` also accepts some shorter fields. pandas' year range (1677-2262) is not modelled.
- Availability.FolderYear: accepts only four-digit names. `to_datetime` accepts other date strings as well.
- Availability.FolderNumber: rejects signs, surrounding whitespace and underscores, which Python's `int` accepts.
- Workplan.SortByTime: is one stable order. pandas' default `sort_index` does not promise an order among rows with equal timestamps.
- An empty frame gives an empty plan. The frame is empty when the listing is empty, and also when every listed key already has a local file, as when a query is re-run after a full download. On an empty frame pandas' `apply` returns a DataFrame rather than a Series, and the index assignment at `nesdis_aws/nesdis_aws.py:183` may then raise; the model returns `Ok([])` instead.
- Timestamps have one-second resolution (`Calendar.ValidDateTime`). A `start` or `end` with a sub-second part is not representable; pandas compares it at full precision in `truncate`.
- The product setter and the cache: changing the product after the plan was built leaves the stale plan cached, as in the source. The model keeps this.
- `readme`, `available_products` and `info_on_current_query` print or format text and are not modelled.

## Findings

| source | as written | input that shows it | evidently intended | confidence | as-written member | corrected member |
|---|---|---|---|---|---|---|
| nesdis_aws/nesdis_aws.py:215 | `to_datetime(firstyear) + to_timedelta(firstday, "D")` is 1 January plus `firstday` days | year folder `2017` whose first day folder is `001` gives 2017-01-02 | the first day folder's own date: 1 January plus `firstday − 1` days, i.e. 2017-01-01 | not executed; high | Availability.SinceAsWritten (with Availability.AsWrittenIsNextDay, Availability.FirstOfJanuaryExample) | Availability.Since (used by Query.AwsQuery.ProductAvailableSince) |

=== FILE: available_since.dfy ===
/**
 * `product_available_since`: the date of the first day folder of the first
 * year folder (other than the placeholder year 2000) a product has in the
 * bucket.
 */
module Availability {
  import opened Wrappers
  import opened Text
  import opened Calendar
  import opened KeyLayout
  import opened Remote

  /**
   * The year folder the popping loop stops at: the first one, in the given
   * order, whose name is not "2000"; popping past the end finds none.
   */
  function FirstYearFolder(years: seq<string>): (r: Option<string>)
    ensures r.None? <==> forall i :: 0 <= i < |years| ==> Basename(years[i]) == "2000"
  {
    if years == [] then None
    else if Basename(years[0]) != "2000" then Some(years[0])
    else FirstYearFolder(years[1..])
  }

  /** The chosen folder is listed, is not named "2000", and every folder before it is. */
  lemma {:induction false} FirstYearFolderPosition(years: seq<string>)
    requires FirstYearFolder(years).Some?
    ensures exists i :: (0 <= i < |years| && years[i] == FirstYearFolder(years).value
      && Basename(years[i]) != "2000" && forall j :: 0 <= j < i ==> Basename(years[j]) == "2000")
  {
    if Basename(years[0]) == "2000" {
      var r := FirstYearFolder(years[1..]);
      FirstYearFolderPosition(years[1..]);
      var i :| 0 <= i < |years[1..]| && years[1..][i] == r.value
        && Basename(years[1..][i]) != "2000" && forall j :: 0 <= j < i ==> Basename(years[1..][j]) == "2000";
      assert years[i + 1] == r.value;
      assert forall j :: 0 <= j < i + 1 ==> Basename(years[j]) == "2000" by {
        forall j | 0 <= j < i + 1 ensures Basename(years[j]) == "2000" {
          if j > 0 { assert years[j] == years[1..][j - 1]; }
        }
      }
    } else {
      assert years[0] == FirstYearFolder(years).value;
    }
  }

  /** In a sorted listing, the chosen folder is the least one whose name is not "2000". */
  lemma FirstYearIsLeast(years: seq<string>, y: string)
    requires StrSorted(years) && FirstYearFolder(years).Some?
    requires y in years && Basename(y) != "2000"
    ensures StrLe(FirstYearFolder(years).value, y)
  {
    var r := FirstYearFolder(years).value;
    FirstYearFolderPosition(years);
    var i :| 0 <= i < |years| && years[i] == r && Basename(r) != "2000"
      && forall j :: 0 <= j < i ==> Basename(years[j]) == "2000";
    var k :| 0 <= k < |years| && years[k] == y;
    assert Basename(years[k]) != "2000";
    assert k >= i;
    if k == i {
      StrLeTotal(r, y);
    }
  }

  /** `int(name)` on a folder name: decimal digits only. */
  function FolderNumber(name: string): (r: Result<nat>)
    ensures r.Ok? <==> |name| >= 1 && AllDigits(name)
    ensures r.Ok? ==> r.value == ParseDigits(name)
    ensures r.Err? ==> r.error == BadNumber(name)
  {
    if |name| >= 1 && AllDigits(name) then Ok(ParseDigits(name)) else Err(BadNumber(name))
  }

  /** `to_datetime(name)` on a year folder's name: a four-digit year. */
  function FolderYear(name: string): (r: Result<nat>)
    ensures r.Ok? <==> |name| == 4 && AllDigits(name)
    ensures r.Ok? ==> r.value == ParseDigits(name) && r.value < 10000
    ensures r.Err? ==> r.error == BadNumber(name)
  {
    if |name| == 4 && AllDigits(name) then
      ParseBelow(name);
      Ok(ParseDigits(name))
    else Err(BadNumber(name))
  }

  lemma {:induction false} ParseBelow(s: string)
    requires AllDigits(s)
    ensures ParseDigits(s) < Pow10(|s|)
  {
    if |s| > 0 {
      ParseBelow(s[..|s| - 1]);
    }
  }

  /** What the property reads from the bucket: the chosen year folder, its year, and the number of its first day folder. */
  datatype Origin = Origin(yearFolder: string, year: nat, firstDay: nat)

  /**
   * The listing steps of `product_available_since`, with their failures in the
   * order the source meets them: no year folder to pop, an empty year folder,
   * a day folder name `int` rejects, a year folder name `to_datetime` rejects.
   */
  function FindOrigin(c: Catalog, productFolder: string): (r: Result<Origin>)
    ensures r.Err? ==> r.error == NoYearFolder || r.error == NoDayFolder || r.error.BadNumber?
    ensures r.Ok? ==> var years := SortStrings(c.Glob(Children(productFolder)));
      && FirstYearFolder(years) == Some(r.value.yearFolder)
      && FolderYear(Basename(r.value.yearFolder)) == Ok(r.value.year)
      && var days := SortStrings(c.Glob(Children(r.value.yearFolder)));
      && days != [] && FolderNumber(Basename(days[0])) == Ok(r.value.firstDay)
    ensures r == Err(NoYearFolder) <==> FirstYearFolder(SortStrings(c.Glob(Children(productFolder)))).None?
    ensures FirstYearFolder(SortStrings(c.Glob(Children(productFolder)))).Some? ==>
      var yearFolder := FirstYearFolder(SortStrings(c.Glob(Children(productFolder)))).value;
      var days := SortStrings(c.Glob(Children(yearFolder)));
      && (r == Err(NoDayFolder) <==> days == [])
      && (days != [] && FolderNumber(Basename(days[0])).Err? ==> r == Err(FolderNumber(Basename(days[0])).error))
      && (days != [] && FolderNumber(Basename(days[0])).Ok? && FolderYear(Basename(yearFolder)).Err? ==>
            r == Err(FolderYear(Basename(yearFolder)).error))
      && (r.Ok? <==> days != [] && FolderNumber(Basename(days[0])).Ok? && FolderYear(Basename(yearFolder)).Ok?)
  {
    match FirstYearFolder(SortStrings(c.Glob(Children(productFolder))))
    case None => Err(NoYearFolder)
    case Some(yearFolder) =>
      var days := SortStrings(c.Glob(Children(yearFolder)));
      if days == [] then Err(NoDayFolder)
      else
        match FolderNumber(Basename(days[0]))
        case Err(e) => Err(e)
        case Ok(firstDay) =>
          match FolderYear(Basename(yearFolder))
          case Err(e) => Err(e)
          case Ok(year) => Ok(Origin(yearFolder, year, firstDay))
  }

  /** The date `off` days after 1 January of year `y` (`off` may be negative). */
  function DateAtOffset(y: int, off: int): (d: Date)
    ensures ValidDate(d)
    decreases if off < 0 then 1 else 0, if off < 0 then -off else off
  {
    if off < 0 then DateAtOffset(y - 1, off + DaysInYear(y - 1))
    else if off < DaysInYear(y) then DateOfDayOfYear(y, off + 1)
    else DateAtOffset(y + 1, off - DaysInYear(y))
  }

  /** The day after a date: the next day of its month, else the first of the next month, else 1 January of the next year. */
  function NextDay(d: Date): (n: Date)
    requires ValidDate(d)
    ensures ValidDate(n)
    ensures n.year == d.year ==> DayOfYear(n) == DayOfYear(d) + 1
    ensures n.year != d.year ==> n == Date(d.year + 1, 1, 1) && DayOfYear(d) == DaysInYear(d.year)
  {
    DaysBeforeMonthMonotone(d.year, d.month, 13);
    YearLength(d.year);
    if d.day < DaysInMonth(d.year, d.month) then Date(d.year, d.month, d.day + 1)
    else if d.month < 12 then Date(d.year, d.month + 1, 1)
    else Date(d.year + 1, 1, 1)
  }

  /** Counting one more day from 1 January lands on the next day, across month and year ends. */
  lemma {:induction false} DateAtOffsetStep(y: int, off: int)
    ensures DateAtOffset(y, off + 1) == NextDay(DateAtOffset(y, off))
    decreases if off < 0 then 1 else 0, if off < 0 then -off else off
  {
    if off < 0 {
      DateAtOffsetStep(y - 1, off + DaysInYear(y - 1));
    } else if off + 1 < DaysInYear(y) {
      var n := NextDay(DateOfDayOfYear(y, off + 1));
      DateRoundTrip(n);
    } else if off + 1 == DaysInYear(y) {
      var last := DateOfDayOfYear(y, off + 1);
      assert NextDay(last) == Date(y + 1, 1, 1);
      DateRoundTrip(Date(y + 1, 1, 1));
    } else {
      DateAtOffsetStep(y + 1, off - DaysInYear(y));
    }
  }

  /**
   * The date as the source computes it: `to_datetime(year) + firstday` days,
   * i.e. 1 January plus the folder's day-of-year number.
   */
  function SinceAsWritten(o: Origin): (t: DateTime)
    ensures ValidDate(t.date) && t.hour == t.minute == t.second == 0
  {
    DateTime(DateAtOffset(o.year, o.firstDay), 0, 0, 0)
  }

  /**
   * The date of the first day folder: 1 January plus `firstday - 1` days, the
   * day whose day-of-year is the folder's number.
   */
  function Since(o: Origin): (t: DateTime)
    ensures ValidDate(t.date) && t.hour == t.minute == t.second == 0
    ensures 1 <= o.firstDay <= DaysInYear(o.year) ==> t.date.year == o.year && DayOfYear(t.date) == o.firstDay
  {
    DateTime(DateAtOffset(o.year, o.firstDay - 1), 0, 0, 0)
  }

  /** As written, the property names the day AFTER the first day folder's date, for every origin. */
  lemma AsWrittenIsNextDay(o: Origin)
    ensures SinceAsWritten(o).date == NextDay(Since(o).date)
  {
    DateAtOffsetStep(o.year, o.firstDay - 1);
  }

  /**
   * A year folder (2017, say) whose first day folder is 001: the source
   * reports 2 January, the data begins on 1 January.
   */
  lemma FirstOfJanuaryExample(yearFolder: string, year: nat)
    ensures SinceAsWritten(Origin(yearFolder, year, 1)) == DateTime(Date(year, 1, 2), 0, 0, 0)
    ensures Since(Origin(yearFolder, year, 1)) == DateTime(Date(year, 1, 1), 0, 0, 0)
  {
    JanuaryOffset(year, 1);
    JanuaryOffset(year, 0);
  }

  /** The first 31 offsets from 1 January stay in January. */
  lemma JanuaryOffset(y: int, off: int)
    requires 0 <= off < 31
    ensures DateAtOffset(y, off) == Date(y, 1, off + 1)
  {
    DateRoundTrip(Date(y, 1, off + 1));
  }

  /** `product_available_since` on the bucket, as the source computes it. */
  function AvailableSinceAsWritten(c: Catalog, productFolder: string): (r: Result<DateTime>)
    ensures r.Ok? <==> FindOrigin(c, productFolder).Ok?
    ensures r.Ok? ==> r.value == SinceAsWritten(FindOrigin(c, productFolder).value)
    ensures r.Err? ==> r.error == FindOrigin(c, productFolder).error
  {
    match FindOrigin(c, productFolder)
    case Err(e) => Err(e)
    case Ok(o) => Ok(SinceAsWritten(o))
  }

  /** `product_available_since` on the bucket, with the date of the first day folder. */
  function AvailableSince(c: Catalog, productFolder: string): (r: Result<DateTime>)
    ensures r.Ok? <==> FindOrigin(c, productFolder).Ok?
    ensures r.Ok? ==> r.value == Since(FindOrigin(c, productFolder).value)
    ensures r.Err? ==> r.error == FindOrigin(c, productFolder).error
  {
    match FindOrigin(c, productFolder)
    case Err(e) => Err(e)
    case Ok(o) => Ok(Since(o))
  }
}

=== FILE: aws_query.dfy ===
/**
 * `AwsQuery`: a search for GOES files on the public bucket. It holds the query
 * settings, the cached workplan, and (as abstract state) the bucket snapshot
 * and the local disk.
 */
module Query {
  import opened Wrappers
  import opened Text
  import opened Calendar
  import opened KeyLayout
  import opened Remote
  import opened Workplan
  import opened Budget
  import opened Transfer
  import opened Availability

  /**
   * The `product` setter's rule: a name ending in the scan-sector letter loses
   * that letter; an empty name has no last character to compare.
   */
  function StripSector(value: string, sector: string): (r: Result<string>)
    ensures r.Err? <==> value == []
    ensures r.Err? ==> r.error == EmptyName
    ensures r.Ok? ==> |value| - 1 <= |r.value| <= |value| && r.value == value[..|r.value|]
    ensures r.Ok? && |r.value| < |value| ==> value == r.value + sector
  {
    if value == [] then Err(EmptyName)
    else if [value[|value| - 1]] == sector then Ok(value[..|value| - 1])
    else Ok(value)
  }

  /**
   * The sector letter is optional in the product name: with or without it,
   * the stored product is the same.
   */
  lemma SectorSuffixOptional(product: string, sector: string)
    requires |sector| == 1 && product != [] && product[|product| - 1] != sector[0]
    ensures StripSector(product, sector) == Ok(product)
    ensures StripSector(product + sector, sector) == Ok(product)
  {
    var v := product + sector;
    assert [v[|v| - 1]] == sector;
    assert v[..|v| - 1] == product;
  }

  /** Only ONE sector letter is removed: a name ending in it twice keeps one. */
  lemma StripsOneLetter(product: string, sector: string)
    requires |sector| == 1
    ensures StripSector(product + sector + sector, sector) == Ok(product + sector)
  {
    var v := product + sector + sector;
    assert [v[|v| - 1]] == sector;
    assert v[..|v| - 1] == product + sector;
  }

  /**
   * The loop of `download` over the plan's rows, on the local disk's files
   * `start` and the fetches recorded so far: each row is fetched unless its
   * file exists (and `overwrite` is off), and test mode stops after the first
   * fetch. `r` plays the part of `out`: the last fetch, or unbound
   * (`NothingFetched`) while nothing has been fetched.
   */
  method FetchRows(rows: seq<Entry>, start: set<string>, startRecord: seq<Entry>, test: bool, overwrite: bool)
    returns (disk: set<string>, record: seq<Entry>, r: Result<Entry>)
    ensures var ts := Transfers(rows, start, overwrite, test);
      record == startRecord + ts && disk == start + LocalsOf(ts) && r == LastFetch(ts)
  {
    disk := start;
    var done: seq<Entry> := [];
    r := Err(NothingFetched);
    var i := 0;
    while i < |rows|
      invariant 0 <= i <= |rows|
      invariant Transfers(rows, start, overwrite, test) == done + Transfers(rows[i..], disk, overwrite, test)
      invariant disk == start + LocalsOf(done)
      invariant r == LastFetch(done)
    {
      var row := rows[i];
      if !overwrite && row.local in disk {
        SkipStep(rows, i, start, disk, done, overwrite, test);
        i := i + 1;
        continue;
      }
      FetchStep(rows, i, start, disk, done, overwrite, test);
      disk := disk + {row.local};
      assert LastFetch(done + [row]) == Ok(row);
      done := done + [row];
      r := Ok(row);
      if test {
        break;
      }
      i := i + 1;
    }
    assert done == Transfers(rows, start, overwrite, test) by {
      if i == |rows| { assert rows[i..] == []; }
    }
    record := startRecord + done;
  }

  class AwsQuery {
    const satellite: string
    const scanSector: string
    var product: string
    const start: DateTime
    const end: DateTime
    /** `path2folder_local`. */
    const localFolder: string
    /** What `self.aws` lists and measures. */
    const catalog: Catalog
    /** The paths that exist as files on the local disk. */
    var local: set<string>
    /** `psutil.disk_usage(path2folder_local)`: bytes used and bytes in total. */
    const used: nat
    const total: nat
    /** `_workplan`: None until the getter builds it or the setter sets it. */
    var cache: Option<seq<Entry>>
    /** Every `aws.get` so far, in order. */
    var fetched: seq<Entry>

    /** The start and end are timestamps pandas could parse. */
    predicate Valid()
    {
      ValidDateTime(start) && ValidDateTime(end)
    }

    /** The query as `__init__` sets it up: the product goes through the setter, nothing is cached. */
    constructor(localFolder: string, satellite: string, product: string, scanSector: string,
                start: DateTime, end: DateTime, catalog: Catalog, local: set<string>, used: nat, total: nat)
      requires product != []
      requires ValidDateTime(start) && ValidDateTime(end)
      ensures Valid()
      ensures this.satellite == satellite && this.scanSector == scanSector
      ensures Ok(this.product) == StripSector(product, scanSector)
      ensures this.start == start && this.end == end && this.localFolder == localFolder
      ensures this.catalog == catalog && this.local == local && this.used == used && this.total == total
      ensures cache == None && fetched == []
    {
      this.satellite := satellite;
      this.scanSector := scanSector;
      this.product := StripSector(product, scanSector).value;
      this.start := start;
      this.end := end;
      this.localFolder := localFolder;
      this.catalog := catalog;
      this.local := local;
      this.used := used;
      this.total := total;
      cache := None;
      fetched := [];
    }

    /** The `product` setter. It leaves a cached workplan as it is. */
    method SetProduct(value: string) returns (r: Result<string>)
      modifies this`product
      ensures r == StripSector(value, scanSector)
      ensures product == if r.Ok? then r.value else old(product)
    {
      if value == [] {
        return Err(EmptyName);
      }
      var v := value;
      if [v[|v| - 1]] == scanSector {
        v := v[..|v| - 1];
      }
      product := v;
      r := Ok(v);
    }

    /** What the getter returns: the cached plan, or a plan built from the current settings. */
    function CurrentPlan(): Result<seq<Entry>>
      reads this
      requires Valid()
    {
      if cache.Some? then Ok(cache.value)
      else BuildWorkplan(catalog, satellite, product, scanSector, localFolder, local, start, end)
    }

    /** The cache after one getter call: a successful build is kept, a failed one leaves it empty. */
    function CacheAfterGet(): Option<seq<Entry>>
      reads this
      requires Valid()
    {
      if cache.Some? then cache
      else match CurrentPlan()
        case Ok(p) => Some(p)
        case Err(_) => None
    }

    /** `estimate_disk_usage` on what the getter returns; a plan that cannot be built fails it. */
    function EstimateOnPlan(sampleSize: int): (r: Result<Projection>)
      reads this
      requires Valid()
      ensures CurrentPlan().Err? ==> r == Err(CurrentPlan().error)
      ensures CurrentPlan().Ok? && sampleSize == 0 ==> r == Err(ZeroSampleSize)
      ensures CurrentPlan().Ok? && sampleSize != 0 ==> r.Ok?
    {
      match CurrentPlan()
      case Err(e) => Err(e)
      case Ok(p) => Estimate(p, catalog, used, total, sampleSize)
    }

    /** The inner loop of the getter: the keys under every hour folder of one day folder, in listing order. */
    method ListDay(dayFolder: string) returns (keys: seq<string>)
      ensures keys == HourKeys(catalog, dayFolder, HourNames(catalog, dayFolder))
    {
      var hours := HourNames(catalog, dayFolder);
      keys := [];
      var j := 0;
      while j < |hours|
        invariant 0 <= j <= |hours|
        invariant keys == HourKeys(catalog, dayFolder, hours[..j])
      {
        keys := keys + catalog.Glob(HourPattern(dayFolder, hours[j]));
        assert hours[..j + 1][..j] == hours[..j];
        j := j + 1;
      }
      assert hours[..j] == hours;
    }

    /**
     * The outer loop of the getter, `files_available`: the keys under every
     * hour folder of each of `days` under `yearFolder`, concatenated in
     * listing order.
     */
    method ListFiles(yearFolder: string, days: seq<nat>) returns (files: seq<string>)
      ensures files == ListedKeys(catalog, yearFolder, days)
    {
      files := [];
      var i := 0;
      while i < |days|
        invariant 0 <= i <= |days|
        invariant files == ListedKeys(catalog, yearFolder, days[..i])
      {
        var keys := ListDay(DayFolder(yearFolder, days[i]));
        files := files + keys;
        assert days[..i + 1][..i] == days[..i];
        i := i + 1;
      }
      assert days[..i] == days;
    }

    /**
     * The `workplan` getter: with a cached plan, that plan and no listing;
     * otherwise the listed keys are turned into a plan, which is cached when
     * the build succeeds.
     */
    method GetWorkplan() returns (r: Result<seq<Entry>>)
      requires Valid()
      modifies this`cache
      ensures r == old(CurrentPlan())
      ensures cache == if old(cache).Some? then old(cache) else if r.Ok? then Some(r.value) else None
      ensures CurrentPlan() == old(CurrentPlan())
    {
      if cache.Some? {
        return Ok(cache.value);
      }
      var days := ListedDays(start, end);
      var yearFolder := YearFolder(ProductFolder(satellite, product, scanSector), start.date.year);
      var files := ListFiles(yearFolder, days);
      r := BuildPlan(files, localFolder, local, StampOf(start), StampOf(end), DecodeName);
      if r.Ok? {
        cache := Some(r.value);
      }
    }

    /** The `workplan` setter: the next getter call returns `plan` (or rebuilds, when it is None). */
    method SetWorkplan(plan: Option<seq<Entry>>)
      modifies this`cache
      ensures cache == plan
    {
      cache := plan;
    }

    /** `estimate_disk_usage(sample_size)`, on the plan the getter returns. */
    method EstimateDiskUsage(sampleSize: int) returns (r: Result<Projection>)
      requires Valid()
      modifies this`cache
      ensures r == old(EstimateOnPlan(sampleSize))
      ensures cache == old(CacheAfterGet())
      ensures CurrentPlan() == old(CurrentPlan())
    {
      var plan := GetWorkplan();
      if plan.Err? {
        return Err(plan.error);
      }
      r := Estimate(plan.value, catalog, used, total, sampleSize);
    }

    /**
     * The rows `download` walks, or why it stops before the loop: the plan
     * cannot be built, or the guard is on and the projected usage is not
     * below 90 %.
     */
    function DownloadPlan(guard: bool): (r: Result<seq<Entry>>)
      reads this
      requires Valid()
      ensures CurrentPlan().Err? ==> r == Err(CurrentPlan().error)
      ensures CurrentPlan().Ok? ==>
        && (r.Ok? <==> !guard || GuardPasses(Estimate(CurrentPlan().value, catalog, used, total, 10).value))
        && (r.Ok? ==> r.value == CurrentPlan().value)
        && (r.Err? ==> guard && r.error == LowDiskSpace)
    {
      match CurrentPlan()
      case Err(e) => Err(e)
      case Ok(p) =>
        if guard && !GuardPasses(Estimate(p, catalog, used, total, 10).value) then Err(LowDiskSpace) else Ok(p)
    }

    /**
     * The guard fires: with rows to fetch on a volume with bytes, a projected
     * use of 90 % or more stops the download with LowDiskSpace.
     */
    lemma GuardStopsDownload()
      requires Valid() && CurrentPlan().Ok? && |CurrentPlan().value| > 0 && total > 0
      requires 10.0 * (used as real + Estimate(CurrentPlan().value, catalog, used, total, 10).value.needed.value)
               >= 9.0 * total as real
      ensures DownloadPlan(true) == Err(LowDiskSpace)
    {
      GuardMeaning(CurrentPlan().value, catalog, used, total, 10);
    }

    /** With the guard off, or when it passes, the download walks the getter's plan. */
    lemma GuardLetsPlanThrough(guard: bool)
      requires Valid() && CurrentPlan().Ok?
      requires !guard || (|CurrentPlan().value| > 0 && total > 0 &&
        10.0 * (used as real + Estimate(CurrentPlan().value, catalog, used, total, 10).value.needed.value)
        < 9.0 * total as real)
      ensures DownloadPlan(guard) == CurrentPlan()
    {
      if guard {
        GuardMeaning(CurrentPlan().value, catalog, used, total, 10);
      }
    }

    /**
     * The part of `download` before the loop: the disk-space guard (when on),
     * then the getter, which yields the rows to walk.
     */
    method GuardedPlan(guard: bool) returns (r: Result<seq<Entry>>)
      requires Valid()
      modifies this`cache
      ensures r == old(DownloadPlan(guard))
      ensures cache == old(CacheAfterGet())
    {
      if guard {
        var estimate := EstimateDiskUsage(10);
        if estimate.Err? {
          return Err(estimate.error);
        }
        if !GuardPasses(estimate.value) {
          return Err(LowDiskSpace);
        }
      }
      r := GetWorkplan();
    }

    /**
     * `download(test, overwrite, error_if_low_disk_space)`: the guard first,
     * then the plan's rows in order, each fetched unless its local file exists
     * (and `overwrite` is off), stopping after the first fetch in test mode.
     * The result is the last fetch.
     */
    method Download(test: bool, overwrite: bool, guard: bool) returns (r: Result<Entry>)
      requires Valid()
      modifies this`cache, this`local, this`fetched
      ensures cache == old(CacheAfterGet())
      ensures old(DownloadPlan(guard)).Err? ==>
        r == Err(old(DownloadPlan(guard)).error) && local == old(local) && fetched == old(fetched)
      ensures old(DownloadPlan(guard)).Ok? ==>
        var ts := Transfers(old(DownloadPlan(guard)).value, old(local), overwrite, test);
        fetched == old(fetched) + ts && local == old(local) + LocalsOf(ts) && r == LastFetch(ts)
    {
      var rows := GuardedPlan(guard);
      if rows.Err? {
        return Err(rows.error);
      }
      r := Fetch(rows.value, test, overwrite);
    }

    /** The download loop over the plan's rows. */
    method Fetch(rows: seq<Entry>, test: bool, overwrite: bool) returns (r: Result<Entry>)
      modifies this`local, this`fetched
      ensures var ts := Transfers(rows, old(local), overwrite, test);
        fetched == old(fetched) + ts && local == old(local) + LocalsOf(ts) && r == LastFetch(ts)
    {
      var disk, record;
      disk, record, r := FetchRows(rows, local, fetched, test, overwrite);
      local, fetched := disk, record;
    }

    /**
     * `product_available_since`: sort the year folders, pop them while they are
     * named "2000", then read the first day folder of the year reached.
     */
    method ProductAvailableSince() returns (r: Result<DateTime>)
      ensures r == AvailableSince(catalog, ProductFolder(satellite, product, scanSector))
    {
      var productFolder := ProductFolder(satellite, product, scanSector);
      var years := SortStrings(catalog.Glob(Children(productFolder)));
      ghost var sorted := years;
      var yearFolder := "";
      var is2000 := true;
      while is2000
        invariant is2000 ==> FirstYearFolder(sorted) == FirstYearFolder(years)
        invariant !is2000 ==> FirstYearFolder(sorted) == Some(yearFolder)
        decreases |years|, is2000
      {
        if years == [] {
          return Err(NoYearFolder);
        }
        yearFolder := years[0];
        years := years[1..];
        if Basename(yearFolder) != "2000" {
          is2000 := false;
        }
      }
      var days := SortStrings(catalog.Glob(Children(yearFolder)));
      if days == [] {
        return Err(NoDayFolder);
      }
      var firstDay := FolderNumber(Basename(days[0]));
      if firstDay.Err? {
        return Err(firstDay.error);
      }
      var year := FolderYear(Basename(yearFolder));
      if year.Err? {
        return Err(year.error);
      }
      r := Ok(Since(Origin(yearFolder, year.value, firstDay.value)));
    }
  }
}

=== FILE: budget.dfy ===
/**
 * The disk budget: sample every k-th row of the workplan, extrapolate the
 * mean object size to the whole plan, and project the local volume's used
 * percentage after the download.
 */
module Budget {
  import opened Wrappers
  import opened Remote
  import opened Workplan

  /** A float the estimate yields: a finite value, or NaN / infinity. */
  datatype Number = Finite(value: real) | NotFinite

  /**
   * The estimate: bytes needed, and the percentage of the volume that would be
   * USED after the download (the source files it under `disk_space_free_after_download`).
   */
  datatype Projection = Projection(needed: Number, usedPercent: Number)

  /** The sampling stride `int(N / sample_size)`, raised to 1 when it is below 1. */
  function Stride(n: nat, sampleSize: int): (k: nat)
    requires sampleSize != 0
    ensures k >= 1
    ensures sampleSize > 0 && n >= sampleSize ==> k * sampleSize <= n < (k + 1) * sampleSize
    ensures sampleSize < 0 || n < sampleSize ==> k == 1
  {
    if sampleSize > 0 && n / sampleSize >= 1 then n / sampleSize else 1
  }

  /** `iloc[::k]`: the rows at positions 0, k, 2k, ... */
  function EveryKth(es: seq<Entry>, k: nat): seq<Entry>
    requires k >= 1
    decreases |es|
  {
    if |es| == 0 then [] else [es[0]] + EveryKth(es[if k < |es| then k else |es|..], k)
  }

  lemma MulSucc(a: int, k: int)
    ensures (a + 1) * k == a * k + k
  {
  }

  /** The sample has ceil(N / k) rows: enough to reach every stride, and no more. */
  lemma {:induction false} EveryKthLength(es: seq<Entry>, k: nat)
    requires k >= 1
    ensures |es| <= |EveryKth(es, k)| * k
    ensures |EveryKth(es, k)| > 0 ==> (|EveryKth(es, k)| - 1) * k < |es|
    decreases |es|
  {
    if |es| > 0 {
      var tail := es[if k < |es| then k else |es|..];
      var rest := EveryKth(tail, k);
      EveryKthLength(tail, k);
      assert |EveryKth(es, k)| == |rest| + 1;
      if k < |es| {
        MulSucc(|rest|, k);
        if |rest| > 0 { MulSucc(|rest| - 1, k); }
      } else {
        assert rest == [];
      }
    }
  }

  /** Row `i` of the sample is row `i * k` of the plan. */
  lemma {:induction false} EveryKthAt(es: seq<Entry>, k: nat, i: nat)
    requires k >= 1 && i < |EveryKth(es, k)|
    ensures i * k < |es| && EveryKth(es, k)[i] == es[i * k]
    decreases |es|
  {
    if i > 0 {
      var tail := es[if k < |es| then k else |es|..];
      assert EveryKth(es, k) == [es[0]] + EveryKth(tail, k);
      EveryKthAt(tail, k, i - 1);
      MulSucc(i - 1, k);
    }
  }

  /** Every sampled row is a row of the plan. */
  lemma SampleWithinPlan(es: seq<Entry>, k: nat)
    requires k >= 1
    ensures forall e :: e in EveryKth(es, k) ==> e in es
  {
    forall e | e in EveryKth(es, k) ensures e in es {
      var i :| 0 <= i < |EveryKth(es, k)| && EveryKth(es, k)[i] == e;
      EveryKthAt(es, k, i);
    }
  }

  /** Total bytes of the sampled rows' remote objects (`aws.disk_usage` on each). */
  function SampledBytes(sample: seq<Entry>, c: Catalog): nat
  {
    if sample == [] then 0 else SampledBytes(sample[..|sample| - 1], c) + c.SizeOf(sample[|sample| - 1].remote)
  }

  /** The sample's mean object size times the number of rows. */
  function Extrapolate(sum: nat, m: nat, n: nat): real
    requires m > 0
  {
    (sum as real / m as real) * n as real
  }

  /**
   * `estimate_disk_usage(sample_size)`: mean sampled size times the number of
   * rows, and `100 * (used + needed) / total`. An empty plan has no mean (NaN);
   * a zero-byte volume gives no percentage.
   */
  function Estimate(plan: seq<Entry>, c: Catalog, used: nat, total: nat, sampleSize: int): (r: Result<Projection>)
    ensures r.Err? <==> sampleSize == 0
    ensures r.Err? ==> r.error == ZeroSampleSize
  {
    if sampleSize == 0 then Err(ZeroSampleSize)
    else
      var sample := EveryKth(plan, Stride(|plan|, sampleSize));
      if |sample| == 0 then Ok(Projection(NotFinite, NotFinite))
      else
        var needed := Extrapolate(SampledBytes(sample, c), |sample|, |plan|);
        if total == 0 then Ok(Projection(Finite(needed), NotFinite))
        else Ok(Projection(Finite(needed), Finite(100.0 * (used as real + needed) / total as real)))
  }

  /** The download guard `disk_space_free_after_download < 90`; NaN and infinity fail it. */
  predicate GuardPasses(p: Projection)
  {
    p.usedPercent.Finite? && p.usedPercent.value < 90.0
  }

  /** The estimate is a number exactly when the plan has rows (and, for the percentage, the volume has bytes). */
  lemma EstimateDefined(plan: seq<Entry>, c: Catalog, used: nat, total: nat, sampleSize: int)
    requires sampleSize != 0
    ensures Estimate(plan, c, used, total, sampleSize).value.needed.Finite? <==> |plan| > 0
    ensures Estimate(plan, c, used, total, sampleSize).value.usedPercent.Finite? <==> |plan| > 0 && total > 0
  {
    var sample := EveryKth(plan, Stride(|plan|, sampleSize));
    assert |plan| > 0 ==> |sample| > 0;
    assert |sample| > 0 ==> |plan| > 0;
  }

  /** An empty plan can never pass the guard: its estimate is NaN. */
  lemma EmptyPlanFailsGuard(c: Catalog, used: nat, total: nat, sampleSize: int)
    requires sampleSize != 0
    ensures !GuardPasses(Estimate([], c, used, total, sampleSize).value)
  {
    EstimateDefined([], c, used, total, sampleSize);
  }

  lemma {:induction false} SampledBytesBounds(sample: seq<Entry>, c: Catalog, lo: nat, hi: nat)
    requires forall e :: e in sample ==> lo <= c.SizeOf(e.remote) <= hi
    ensures lo * |sample| <= SampledBytes(sample, c) <= hi * |sample|
  {
    if sample != [] {
      var init := sample[..|sample| - 1];
      assert forall e :: e in init ==> e in sample;
      assert sample[|sample| - 1] in sample;
      SampledBytesBounds(init, c, lo, hi);
      MulSucc(|init|, lo);
      MulSucc(|init|, hi);
      assert lo * |sample| == |sample| * lo && hi * |sample| == |sample| * hi;
      assert lo * |init| == |init| * lo && hi * |init| == |init| * hi;
    }
  }

  lemma MeanBetween(sum: real, m: real, lo: real, hi: real)
    requires m > 0.0 && lo * m <= sum <= hi * m
    ensures lo <= sum / m <= hi
  {
  }

  lemma ScaleBetween(x: real, n: real, lo: real, hi: real)
    requires n >= 0.0 && lo <= x <= hi
    ensures lo * n <= x * n <= hi * n
  {
  }

  lemma CastMul(a: nat, b: nat)
    ensures (a * b) as real == a as real * b as real
  {
  }

  lemma CastLe(a: nat, b: nat)
    requires a <= b
    ensures a as real <= b as real
  {
  }

  /** A mean between the extremes extrapolates to a total between the extremes. */
  lemma ExtrapolateBetween(sum: nat, m: nat, n: nat, lo: nat, hi: nat)
    requires m > 0 && lo * m <= sum <= hi * m
    ensures (lo * n) as real <= Extrapolate(sum, m, n) <= (hi * n) as real
  {
    CastLe(lo * m, sum);
    CastLe(sum, hi * m);
    CastMul(lo, m);
    CastMul(hi, m);
    MeanBetween(sum as real, m as real, lo as real, hi as real);
    ScaleBetween(sum as real / m as real, n as real, lo as real, hi as real);
    CastMul(lo, n);
    CastMul(hi, n);
  }

  lemma BelowFraction(x: real, t: real)
    requires t > 0.0
    ensures 100.0 * x / t < 90.0 <==> 10.0 * x < 9.0 * t
  {
    assert 100.0 * x / t * t == 100.0 * x;
  }

  /**
   * The extrapolation is bounded by the extremes: when every row's object
   * holds between `lo` and `hi` bytes, the estimate lies between `lo * N` and
   * `hi * N`; in particular it is exact when all objects have one size.
   */
  lemma NeededBetweenExtremes(plan: seq<Entry>, c: Catalog, used: nat, total: nat, sampleSize: int, lo: nat, hi: nat)
    requires sampleSize != 0 && |plan| > 0
    requires forall e :: e in plan ==> lo <= c.SizeOf(e.remote) <= hi
    ensures Estimate(plan, c, used, total, sampleSize).value.needed.Finite?
    ensures var needed := Estimate(plan, c, used, total, sampleSize).value.needed.value;
      (lo * |plan|) as real <= needed <= (hi * |plan|) as real
  {
    var sample := EveryKth(plan, Stride(|plan|, sampleSize));
    assert |sample| > 0;
    var needed := Extrapolate(SampledBytes(sample, c), |sample|, |plan|);
    assert Estimate(plan, c, used, total, sampleSize).value.needed == Finite(needed);
    SampleWithinPlan(plan, Stride(|plan|, sampleSize));
    SampledBytesBounds(sample, c, lo, hi);
    ExtrapolateBetween(SampledBytes(sample, c), |sample|, |plan|, lo, hi);
  }

  /** With a non-empty plan on a real volume, the guard passes exactly when used plus needed stays below 90 % of the total. */
  lemma GuardMeaning(plan: seq<Entry>, c: Catalog, used: nat, total: nat, sampleSize: int)
    requires sampleSize != 0 && |plan| > 0 && total > 0
    ensures var p := Estimate(plan, c, used, total, sampleSize).value;
      p.needed.Finite? &&
      (GuardPasses(p) <==> 10.0 * (used as real + p.needed.value) < 9.0 * total as real)
  {
    EstimateDefined(plan, c, used, total, sampleSize);
    var p := Estimate(plan, c, used, total, sampleSize).value;
    BelowFraction(used as real + p.needed.value, total as real);
  }
}

=== FILE: calendar.dfy ===
/** Proleptic Gregorian dates and day-of-year numbers, as pandas computes them. */
module Calendar {

  datatype Date = Date(year: int, month: int, day: int)

  /** A timestamp with one-second resolution (`pandas.Timestamp` without sub-second parts). */
  datatype DateTime = DateTime(date: Date, hour: int, minute: int, second: int)

  predicate IsLeapYear(y: int)
  {
    y % 4 == 0 && (y % 100 != 0 || y % 400 == 0)
  }

  function DaysInYear(y: int): nat
  {
    if IsLeapYear(y) then 366 else 365
  }

  function DaysInMonth(y: int, m: int): nat
    requires 1 <= m <= 12
  {
    if m == 2 then (if IsLeapYear(y) then 29 else 28)
    else if m == 4 || m == 6 || m == 9 || m == 11 then 30
    else 31
  }

  /** Days of year `y` before the first of month `m`; month 13 stands for the year's end. */
  function DaysBeforeMonth(y: int, m: int): nat
    requires 1 <= m <= 13
  {
    if m == 1 then 0 else DaysBeforeMonth(y, m - 1) + DaysInMonth(y, m - 1)
  }

  lemma {:induction false} DaysBeforeMonthMonotone(y: int, a: int, b: int)
    requires 1 <= a <= b <= 13
    ensures DaysBeforeMonth(y, a) <= DaysBeforeMonth(y, b)
    ensures a < b ==> DaysBeforeMonth(y, a) + DaysInMonth(y, a) <= DaysBeforeMonth(y, b)
  {
    if a < b { DaysBeforeMonthMonotone(y, a, b - 1); }
  }

  /** The first day of each month, counted from 1 January; `leap` is 1 in a leap year. */
  lemma MonthStarts(y: int)
    ensures var leap := if IsLeapYear(y) then 1 else 0;
      && DaysBeforeMonth(y, 2) == 31
      && DaysBeforeMonth(y, 3) == 59 + leap
      && DaysBeforeMonth(y, 4) == 90 + leap
      && DaysBeforeMonth(y, 5) == 120 + leap
      && DaysBeforeMonth(y, 6) == 151 + leap
      && DaysBeforeMonth(y, 7) == 181 + leap
      && DaysBeforeMonth(y, 8) == 212 + leap
      && DaysBeforeMonth(y, 9) == 243 + leap
      && DaysBeforeMonth(y, 10) == 273 + leap
      && DaysBeforeMonth(y, 11) == 304 + leap
      && DaysBeforeMonth(y, 12) == 334 + leap
      && DaysBeforeMonth(y, 13) == 365 + leap
  {
    assert DaysBeforeMonth(y, 2) == 31;
    assert DaysBeforeMonth(y, 3) == DaysBeforeMonth(y, 2) + DaysInMonth(y, 2);
    assert DaysBeforeMonth(y, 4) == DaysBeforeMonth(y, 3) + 31;
    assert DaysBeforeMonth(y, 5) == DaysBeforeMonth(y, 4) + 30;
    assert DaysBeforeMonth(y, 6) == DaysBeforeMonth(y, 5) + 31;
    assert DaysBeforeMonth(y, 7) == DaysBeforeMonth(y, 6) + 30;
    assert DaysBeforeMonth(y, 8) == DaysBeforeMonth(y, 7) + 31;
    assert DaysBeforeMonth(y, 9) == DaysBeforeMonth(y, 8) + 31;
    assert DaysBeforeMonth(y, 10) == DaysBeforeMonth(y, 9) + 30;
    assert DaysBeforeMonth(y, 11) == DaysBeforeMonth(y, 10) + 31;
    assert DaysBeforeMonth(y, 12) == DaysBeforeMonth(y, 11) + 30;
    assert DaysBeforeMonth(y, 13) == DaysBeforeMonth(y, 12) + 31;
  }

  lemma YearLength(y: int)
    ensures DaysBeforeMonth(y, 13) == DaysInYear(y)
  {
    MonthStarts(y);
  }

  predicate ValidDate(d: Date)
  {
    1 <= d.month <= 12 && 1 <= d.day <= DaysInMonth(d.year, d.month)
  }

  /** A timestamp pandas can hold: a real date, a time of day, a year of our era. */
  predicate ValidDateTime(t: DateTime)
  {
    0 <= t.date.year && ValidDate(t.date) && 0 <= t.hour < 24 && 0 <= t.minute < 60 && 0 <= t.second < 60
  }

  /**
   * The day-of-year of a date: whole days since 1 January of its year, plus one
   * (pandas: `int(to_julian_date(date) - to_julian_date(f'{year}-01-01')) + 1`).
   */
  function DayOfYear(d: Date): (n: nat)
    requires ValidDate(d)
    ensures 1 <= n <= DaysInYear(d.year)
  {
    DaysBeforeMonthMonotone(d.year, d.month, 13);
    YearLength(d.year);
    DaysBeforeMonth(d.year, d.month) + d.day
  }

  /** The month, at most `m`, whose days contain day-of-year `doy`. */
  function MonthOf(y: int, doy: int, m: int): (r: int)
    requires 1 <= m <= 12 && 1 <= doy <= DaysBeforeMonth(y, m) + DaysInMonth(y, m)
    ensures 1 <= r <= m
    ensures DaysBeforeMonth(y, r) < doy <= DaysBeforeMonth(y, r) + DaysInMonth(y, r)
  {
    if m == 1 || DaysBeforeMonth(y, m) < doy then m else MonthOf(y, doy, m - 1)
  }

  /** The calendar date of day `doy` of year `y`: the inverse of DayOfYear. */
  function DateOfDayOfYear(y: int, doy: int): (d: Date)
    requires 1 <= doy <= DaysInYear(y)
    ensures ValidDate(d) && d.year == y && DayOfYear(d) == doy
  {
    YearLength(y);
    var m := MonthOf(y, doy, 12);
    Date(y, m, doy - DaysBeforeMonth(y, m))
  }

  /** Day-of-year and calendar date determine each other: the other direction of the round trip. */
  lemma DateRoundTrip(d: Date)
    requires ValidDate(d)
    ensures DateOfDayOfYear(d.year, DayOfYear(d)) == d
  {
    var y, doy := d.year, DayOfYear(d);
    var r := DateOfDayOfYear(y, doy).month;
    if r < d.month {
      DaysBeforeMonthMonotone(y, r, d.month);
    } else if r > d.month {
      DaysBeforeMonthMonotone(y, d.month, r);
    }
  }

  /** Within one year, a later month, or a later day of the same month, has a larger day-of-year. */
  lemma DayOfYearOrder(a: Date, b: Date)
    requires ValidDate(a) && ValidDate(b) && a.year == b.year
    ensures DayOfYear(a) < DayOfYear(b) <==> a.month < b.month || (a.month == b.month && a.day < b.day)
    ensures DayOfYear(a) == DayOfYear(b) <==> a == b
  {
    if a.month < b.month {
      DaysBeforeMonthMonotone(a.year, a.month, b.month);
    } else if b.month < a.month {
      DaysBeforeMonthMonotone(a.year, b.month, a.month);
    }
  }

  /** Timestamp order, as pandas compares Timestamps: field by field, most significant first. */
  predicate DateTimeLe(a: DateTime, b: DateTime)
  {
    if a.date.year != b.date.year then a.date.year < b.date.year
    else if a.date.month != b.date.month then a.date.month < b.date.month
    else if a.date.day != b.date.day then a.date.day < b.date.day
    else if a.hour != b.hour then a.hour < b.hour
    else if a.minute != b.minute then a.minute < b.minute
    else a.second <= b.second
  }

  /** Day 220 of the leap year 2020 is 7 August. */
  lemma LeapYearDay220()
    ensures DateOfDayOfYear(2020, 220) == Date(2020, 8, 7)
  {
    assert IsLeapYear(2020);
    MonthStarts(2020);
    DateRoundTrip(Date(2020, 8, 7));
  }

  /** Day 220 of the common year 2021 is 8 August: the leap day shifts every later date. */
  lemma CommonYearDay220()
    ensures DateOfDayOfYear(2021, 220) == Date(2021, 8, 8)
  {
    assert !IsLeapYear(2021);
    MonthStarts(2021);
    DateRoundTrip(Date(2021, 8, 8));
  }
}

=== FILE: download.dfy ===
/**
 * What `download` fetches: the workplan's rows in order, skipping those whose
 * local file already exists unless overwriting, and stopping after the first
 * fetch in test mode.
 */
module Transfer {
  import opened Wrappers
  import opened Workplan

  /**
   * The rows the download loop copies, in order, when the local disk holds
   * the files `local` at the start. A file fetched earlier in the loop exists
   * for the rows after it.
   */
  function Transfers(plan: seq<Entry>, local: set<string>, overwrite: bool, test: bool): seq<Entry>
    decreases |plan|
  {
    if plan == [] then []
    else if !overwrite && plan[0].local in local then Transfers(plan[1..], local, overwrite, test)
    else if test then [plan[0]]
    else [plan[0]] + Transfers(plan[1..], local + {plan[0].local}, overwrite, test)
  }

  /** The local paths a sequence of fetches writes. */
  function LocalsOf(es: seq<Entry>): set<string>
  {
    if es == [] then {} else LocalsOf(es[..|es| - 1]) + {es[|es| - 1].local}
  }

  /** The written paths are exactly the local paths of the fetched rows. */
  lemma {:induction false} LocalsOfMembers(es: seq<Entry>)
    ensures forall e :: e in es ==> e.local in LocalsOf(es)
    ensures forall p :: p in LocalsOf(es) ==> exists e :: e in es && e.local == p
  {
    if es != [] {
      var init := es[..|es| - 1];
      LocalsOfMembers(init);
      assert es == init + [es[|es| - 1]];
      assert forall e :: e in init ==> e in es;
    }
  }

  /** `out`: the result of the last `aws.get`; nothing fetched leaves it unbound. */
  function LastFetch(fetched: seq<Entry>): (r: Result<Entry>)
    ensures r.Err? <==> fetched == []
    ensures r.Err? ==> r.error == NothingFetched
    ensures r.Ok? ==> r.value in fetched && r.value == fetched[|fetched| - 1]
  {
    if fetched == [] then Err(NothingFetched) else Ok(fetched[|fetched| - 1])
  }

  /** `xs` occurs in `ys` in order, possibly with gaps. */
  predicate Subsequence(xs: seq<Entry>, ys: seq<Entry>)
    decreases |ys|
  {
    if xs == [] then true
    else if ys == [] then false
    else if xs[0] == ys[0] then Subsequence(xs[1..], ys[1..])
    else Subsequence(xs, ys[1..])
  }

  /** The loop fetches rows of the plan, in the plan's order (the index order of the sorted workplan). */
  lemma {:induction false} TransfersFollowPlan(plan: seq<Entry>, local: set<string>, overwrite: bool, test: bool)
    ensures Subsequence(Transfers(plan, local, overwrite, test), plan)
    decreases |plan|
  {
    if plan != [] {
      var ts := Transfers(plan, local, overwrite, test);
      if !overwrite && plan[0].local in local {
        TransfersFollowPlan(plan[1..], local, overwrite, test);
        SubsequenceSkip(ts, plan);
      } else if test {
        assert ts == [plan[0]] && ts[1..] == [];
      } else {
        TransfersFollowPlan(plan[1..], local + {plan[0].local}, overwrite, test);
        assert ts[0] == plan[0] && ts[1..] == Transfers(plan[1..], local + {plan[0].local}, overwrite, test);
      }
    }
  }

  lemma {:induction false} SubsequenceSkip(xs: seq<Entry>, ys: seq<Entry>)
    requires ys != [] && Subsequence(xs, ys[1..])
    ensures Subsequence(xs, ys)
    decreases |ys|, |xs|
  {
    if xs != [] && xs[0] == ys[0] {
      SubsequenceDropHead(xs, ys[1..]);
    }
  }

  lemma {:induction false} SubsequenceDropHead(xs: seq<Entry>, ys: seq<Entry>)
    requires xs != [] && Subsequence(xs, ys)
    ensures Subsequence(xs[1..], ys)
    decreases |ys|, |xs|
  {
    if xs[0] == ys[0] {
      if ys[1..] != [] {
        SubsequenceSkip(xs[1..], ys);
      } else if xs[1..] != [] {
        assert false;
      }
    } else {
      SubsequenceDropHead(xs, ys[1..]);
      SubsequenceSkip(xs[1..], ys);
    }
  }

  /** Every fetched row is a row of the plan. */
  lemma {:induction false} TransfersFromPlan(plan: seq<Entry>, local: set<string>, overwrite: bool, test: bool)
    ensures forall e :: e in Transfers(plan, local, overwrite, test) ==> e in plan
    decreases |plan|
  {
    if plan != [] {
      TransfersFromPlan(plan[1..], local, overwrite, test);
      TransfersFromPlan(plan[1..], local + {plan[0].local}, overwrite, test);
    }
  }

  /**
   * Without `overwrite` no existing file is replaced, and no local path is
   * written twice: a row whose file an earlier row fetched is skipped.
   */
  lemma {:induction false} NoOverwriteKeepsFiles(plan: seq<Entry>, local: set<string>, test: bool)
    ensures var ts := Transfers(plan, local, false, test);
      && (forall e :: e in ts ==> e.local !in local)
      && (forall i, j :: 0 <= i < j < |ts| ==> ts[i].local != ts[j].local)
    decreases |plan|
  {
    if plan != [] {
      var ts := Transfers(plan, local, false, test);
      if plan[0].local in local {
        NoOverwriteKeepsFiles(plan[1..], local, test);
      } else if !test {
        var grown := local + {plan[0].local};
        NoOverwriteKeepsFiles(plan[1..], grown, test);
        assert ts == [plan[0]] + Transfers(plan[1..], grown, false, test);
        forall i, j | 0 <= i < j < |ts| ensures ts[i].local != ts[j].local {
          if i == 0 { assert ts[j] in Transfers(plan[1..], grown, false, test); }
        }
      }
    }
  }

  /** In test mode at most one file is fetched: the first row whose file is missing (or the first row, when overwriting). */
  lemma {:induction false} TestFetchesOne(plan: seq<Entry>, local: set<string>, overwrite: bool)
    ensures |Transfers(plan, local, overwrite, true)| <= 1
    ensures Transfers(plan, local, overwrite, true) == [] <==> forall e :: e in plan ==> !overwrite && e.local in local
    decreases |plan|
  {
    if plan != [] {
      TestFetchesOne(plan[1..], local, overwrite);
      assert forall e :: e in plan <==> e == plan[0] || e in plan[1..];
      if !overwrite && plan[0].local in local {
        assert Transfers(plan, local, overwrite, true) == Transfers(plan[1..], local, overwrite, true);
      } else {
        assert Transfers(plan, local, overwrite, true) == [plan[0]];
        assert plan[0] in plan;
      }
    }
  }

  /** With `overwrite` and without `test`, every row of the plan is fetched, in order. */
  lemma {:induction false} OverwriteFetchesAll(plan: seq<Entry>, local: set<string>)
    ensures Transfers(plan, local, true, false) == plan
    decreases |plan|
  {
    if plan != [] {
      OverwriteFetchesAll(plan[1..], local + {plan[0].local});
      assert plan == [plan[0]] + plan[1..];
    }
  }

  /** A full run (not `test`) leaves every row's local file on disk. */
  lemma {:induction false} FullRunCompletes(plan: seq<Entry>, local: set<string>, overwrite: bool)
    ensures forall e :: e in plan ==> e.local in local + LocalsOf(Transfers(plan, local, overwrite, false))
    decreases |plan|
  {
    if plan != [] {
      var ts := Transfers(plan, local, overwrite, false);
      if !overwrite && plan[0].local in local {
        FullRunCompletes(plan[1..], local, overwrite);
      } else {
        var grown := local + {plan[0].local};
        FullRunCompletes(plan[1..], grown, overwrite);
        LocalsAppend([plan[0]], Transfers(plan[1..], grown, overwrite, false));
        LocalsOfMembers([plan[0]]);
        assert ts == [plan[0]] + Transfers(plan[1..], grown, overwrite, false);
      }
      assert forall e :: e in plan ==> e == plan[0] || e in plan[1..];
    }
  }

  lemma {:induction false} LocalsAppend(a: seq<Entry>, b: seq<Entry>)
    ensures LocalsOf(a + b) == LocalsOf(a) + LocalsOf(b)
    decreases |b|
  {
    if b == [] {
      assert a + b == a;
    } else {
      LocalsAppend(a, b[..|b| - 1]);
      assert (a + b)[..|a + b| - 1] == a + b[..|b| - 1];
    }
  }

  /** Fetching one more row writes one more path. */
  lemma LocalsSnoc(es: seq<Entry>, e: Entry)
    ensures LocalsOf(es + [e]) == LocalsOf(es) + {e.local}
  {
    assert (es + [e])[..|es|] == es;
  }

  /** The loop skips row `i`, whose file exists: the fetches still to come are those of the rows after it. */
  lemma SkipStep(rows: seq<Entry>, i: nat, start: set<string>, disk: set<string>, done: seq<Entry>, overwrite: bool, test: bool)
    requires i < |rows| && !overwrite && rows[i].local in disk
    requires Transfers(rows, start, overwrite, test) == done + Transfers(rows[i..], disk, overwrite, test)
    ensures Transfers(rows, start, overwrite, test) == done + Transfers(rows[i + 1..], disk, overwrite, test)
  {
    assert rows[i..][1..] == rows[i + 1..];
  }

  /** The loop fetches row `i`: it joins the fetches made, and its file the disk. */
  lemma FetchStep(rows: seq<Entry>, i: nat, start: set<string>, disk: set<string>, done: seq<Entry>, overwrite: bool, test: bool)
    requires i < |rows| && !(!overwrite && rows[i].local in disk)
    requires Transfers(rows, start, overwrite, test) == done + Transfers(rows[i..], disk, overwrite, test)
    requires disk == start + LocalsOf(done)
    ensures test ==> Transfers(rows, start, overwrite, test) == done + [rows[i]]
    ensures !test ==>
      Transfers(rows, start, overwrite, test) == (done + [rows[i]]) + Transfers(rows[i + 1..], disk + {rows[i].local}, overwrite, test)
    ensures disk + {rows[i].local} == start + LocalsOf(done + [rows[i]])
  {
    var rest := rows[i..];
    assert rest[0] == rows[i] && rest[1..] == rows[i + 1..];
    TransfersStep(rest, disk, overwrite, test);
    if !test {
      var later := Transfers(rows[i + 1..], disk + {rows[i].local}, overwrite, test);
      assert done + ([rows[i]] + later) == (done + [rows[i]]) + later;
    }
    LocalsSnoc(done, rows[i]);
  }

  /** One step of the loop: the remaining fetches after row `plan[0]` is handled. */
  lemma TransfersStep(plan: seq<Entry>, local: set<string>, overwrite: bool, test: bool)
    requires plan != []
    ensures !overwrite && plan[0].local in local ==>
      Transfers(plan, local, overwrite, test) == Transfers(plan[1..], local, overwrite, test)
    ensures !(!overwrite && plan[0].local in local) && test ==>
      Transfers(plan, local, overwrite, test) == [plan[0]]
    ensures !(!overwrite && plan[0].local in local) && !test ==>
      Transfers(plan, local, overwrite, test) == [plan[0]] + Transfers(plan[1..], local + {plan[0].local}, overwrite, test)
  {
  }
}

=== FILE: key_layout.dfy ===
/**
 * The key layout of the GOES buckets: folder paths
 * `noaa-goes<sat>/<product><sector>/<year>/<ddd>/<hh>/` and the start-of-scan
 * token `s<YYYY><DDD><HH><MM><SS><t>` embedded in every file name.
 */
module KeyLayout {
  import opened Wrappers
  import opened Text
  import opened Calendar

  // ---------------------------------------------------------------------------
  // Observation times
  // ---------------------------------------------------------------------------

  /** An observation time as the file names spell it: year, day-of-year, hour, minute, second. */
  datatype Stamp = Stamp(year: nat, doy: nat, hour: nat, minute: nat, second: nat)

  predicate ValidStamp(t: Stamp)
  {
    1 <= t.doy <= DaysInYear(t.year) && t.hour < 24 && t.minute < 60 && t.second < 60
  }

  /** Chronological order of valid stamps: field by field, most significant first. */
  predicate StampLe(a: Stamp, b: Stamp)
  {
    if a.year != b.year then a.year < b.year
    else if a.doy != b.doy then a.doy < b.doy
    else if a.hour != b.hour then a.hour < b.hour
    else if a.minute != b.minute then a.minute < b.minute
    else a.second <= b.second
  }

  lemma StampLeTransitive(a: Stamp, b: Stamp, c: Stamp)
    requires StampLe(a, b) && StampLe(b, c)
    ensures StampLe(a, c)
  {
  }

  lemma StampLeTotal(a: Stamp, b: Stamp)
    ensures StampLe(a, b) || StampLe(b, a)
  {
  }

  predicate StampLt(a: Stamp, b: Stamp)
  {
    StampLe(a, b) && a != b
  }

  /** The stamp of a calendar timestamp (`start`, `end`), for comparing with decoded stamps. */
  function StampOf(t: DateTime): (s: Stamp)
    requires ValidDateTime(t)
    ensures ValidStamp(s) && s.year == t.date.year
  {
    Stamp(t.date.year, DayOfYear(t.date), t.hour, t.minute, t.second)
  }

  /** The calendar timestamp a stamp stands for. */
  function DateTimeOf(s: Stamp): (t: DateTime)
    requires ValidStamp(s)
    ensures ValidDateTime(t) && StampOf(t) == s
  {
    DateTime(DateOfDayOfYear(s.year, s.doy), s.hour, s.minute, s.second)
  }

  /** Comparing stamps is comparing the timestamps they come from. */
  lemma StampOfOrder(a: DateTime, b: DateTime)
    requires ValidDateTime(a) && ValidDateTime(b)
    ensures StampLe(StampOf(a), StampOf(b)) <==> DateTimeLe(a, b)
  {
    if a.date.year == b.date.year {
      DayOfYearOrder(a.date, b.date);
    }
  }

  lemma DateTimeRoundTrip(t: DateTime)
    requires ValidDateTime(t)
    ensures DateTimeOf(StampOf(t)) == t
  {
    DateRoundTrip(t.date);
  }

  // ---------------------------------------------------------------------------
  // The start-of-scan token (row2timestamp)
  // ---------------------------------------------------------------------------

  /**
   * `pd.to_datetime(tok, format='%Y%j%H%M%S')` on the 13 digits between the 's'
   * and the tenth-of-second digit. Day 366 of a common year rolls over to
   * 1 January of the next year, as pandas does.
   */
  function ParseTimeToken(tok: string): (r: Result<Stamp>)
    ensures r.Ok? ==> ValidStamp(r.value)
    ensures r.Err? ==> r.error == BadTimestamp(tok)
  {
    if |tok| != 13 || !AllDigits(tok) then Err(BadTimestamp(tok))
    else
      var year := ParseDigits(tok[..4]);
      var doy := ParseDigits(tok[4..7]);
      var hour := ParseDigits(tok[7..9]);
      var minute := ParseDigits(tok[9..11]);
      var second := ParseDigits(tok[11..]);
      if doy < 1 || doy > 366 || hour > 23 || minute > 59 || second > 59 then Err(BadTimestamp(tok))
      else if doy > DaysInYear(year) then Ok(Stamp(year + 1, doy - DaysInYear(year), hour, minute, second))
      else Ok(Stamp(year, doy, hour, minute, second))
  }

  /**
   * The third-from-last '_'-separated part of a file name, which must start with 's'
   * (`name.split('_')[-3]` and the assertion on its first character).
   */
  function StartToken(name: string): (r: Result<string>)
    ensures r.Ok? ==> |r.value| >= 1 && r.value[0] == 's'
    ensures r.Ok? <==> |Split(name, '_')| >= 3 && StartsWithS(Split(name, '_')[|Split(name, '_')| - 3])
    ensures r.Ok? ==> r.value == Split(name, '_')[|Split(name, '_')| - 3]
    ensures r.Err? ==> r.error == MalformedKey(name)
  {
    var parts := Split(name, '_');
    if |parts| < 3 then Err(MalformedKey(name))
    else
      var sos := parts[|parts| - 3];
      if !StartsWithS(sos) then Err(MalformedKey(name)) else Ok(sos)
  }

  predicate StartsWithS(s: string)
  {
    |s| >= 1 && s[0] == 's'
  }

  /** Python's `sos[1:-1]`: the token without its first and last characters. */
  function Inner(sos: string): string
  {
    if |sos| < 2 then "" else sos[1..|sos| - 1]
  }

  /** `row2timestamp` on a file name: the observation time its start token encodes. */
  function DecodeName(name: string): (r: Result<Stamp>)
    ensures r.Ok? ==> ValidStamp(r.value)
    ensures r.Err? ==> r.error == MalformedKey(name) || r.error.BadTimestamp?
    ensures StartToken(name).Err? ==> r == Err(MalformedKey(name))
    ensures StartToken(name).Ok? ==> r == ParseTimeToken(Inner(StartToken(name).value))
  {
    match StartToken(name)
    case Err(e) => Err(e)
    case Ok(sos) => ParseTimeToken(Inner(sos))
  }

  /** The 13 digits `%Y%j%H%M%S` of a stamp. */
  function TimeToken(t: Stamp): (tok: string)
    ensures |tok| == 13 && AllDigits(tok)
  {
    Pad(t.year, 4) + Pad(t.doy, 3) + Pad(t.hour, 2) + Pad(t.minute, 2) + Pad(t.second, 2)
  }

  /** The fields of a stamp fit their digit counts: four for the year, three for the day, two for the rest. */
  predicate FitsToken(t: Stamp)
  {
    t.year < 10000 && t.doy < 1000 && t.hour < 100 && t.minute < 100 && t.second < 100
  }

  /** The five fields read back from the 13 digits of a stamp that fits them. */
  lemma TokenFields(t: Stamp)
    requires FitsToken(t)
    ensures var tok := TimeToken(t);
      && ParseDigits(tok[..4]) == t.year && ParseDigits(tok[4..7]) == t.doy
      && ParseDigits(tok[7..9]) == t.hour && ParseDigits(tok[9..11]) == t.minute
      && ParseDigits(tok[11..]) == t.second
  {
    var tok := TimeToken(t);
    assert tok[..4] == Pad(t.year, 4);
    assert tok[4..7] == Pad(t.doy, 3);
    assert tok[7..9] == Pad(t.hour, 2);
    assert tok[9..11] == Pad(t.minute, 2);
    assert tok[11..] == Pad(t.second, 2);
    assert Pow10(2) == 100 && Pow10(3) == 1000 && Pow10(4) == 10000;
    ParsePad(t.year, 4);
    ParsePad(t.doy, 3);
    ParsePad(t.hour, 2);
    ParsePad(t.minute, 2);
    ParsePad(t.second, 2);
  }

  /** Parsing the digits of any valid stamp with a four-digit year gives that stamp back. */
  lemma TokenRoundTrip(t: Stamp)
    requires ValidStamp(t) && t.year < 10000
    ensures ParseTimeToken(TimeToken(t)) == Ok(t)
  {
    TokenFields(t);
  }

  /**
   * The parser accepts exactly the 13-digit tokens whose day-of-year is 1 to
   * 366, hour at most 23, and minute and second at most 59.
   */
  lemma TokenAccepted(tok: string)
    ensures ParseTimeToken(tok).Ok? <==>
      && |tok| == 13 && AllDigits(tok)
      && 1 <= ParseDigits(tok[4..7]) <= 366
      && ParseDigits(tok[7..9]) <= 23 && ParseDigits(tok[9..11]) <= 59 && ParseDigits(tok[11..]) <= 59
  {
  }

  /** Day 000, a day above 366, hour 24 and up, or minute or second 60 and up are rejected. */
  lemma TokenRejects(t: Stamp)
    requires FitsToken(t)
    requires t.doy == 0 || t.doy > 366 || t.hour > 23 || t.minute > 59 || t.second > 59
    ensures ParseTimeToken(TimeToken(t)) == Err(BadTimestamp(TimeToken(t)))
  {
    TokenFields(t);
  }

  /** Day 366 of a common year is read as 1 January of the next year, as pandas does. */
  lemma TokenRollover(t: Stamp)
    requires FitsToken(t) && t.doy == 366 && !IsLeapYear(t.year)
    requires t.hour < 24 && t.minute < 60 && t.second < 60
    ensures ParseTimeToken(TimeToken(t)) == Ok(Stamp(t.year + 1, 1, t.hour, t.minute, t.second))
  {
    TokenFields(t);
    assert DaysInYear(t.year) == 365;
  }

  /** The start token of a file observed at `t`; `tenth` is the tenth-of-second digit. */
  function StartTokenOf(t: Stamp, tenth: char): string
  {
    "s" + TimeToken(t) + [tenth]
  }

  /** A start token has no '_': it is 's', thirteen digits and a tenth digit other than '_'. */
  lemma StartTokenHasNoSep(t: Stamp, tenth: char)
    requires tenth != '_'
    ensures '_' !in StartTokenOf(t, tenth)
  {
    var sos, tok := StartTokenOf(t, tenth), TimeToken(t);
    forall k | 0 <= k < |sos| ensures sos[k] != '_' {
      if 1 <= k <= 13 { assert sos[k] == tok[k - 1]; }
    }
  }

  /** In `<head>_<a>_<e>_<c>`, where `a`, `e` and `c` hold no '_', the third-from-last part is `a`. */
  lemma ThirdFromLast(head: string, a: string, e: string, c: string)
    requires '_' !in a && '_' !in e && '_' !in c
    ensures var parts := Split(head + "_" + a + "_" + e + "_" + c, '_');
      |parts| >= 3 && parts[|parts| - 3] == a
  {
    SplitSnoc(head, '_', a);
    SplitSnoc(head + "_" + a, '_', e);
    SplitSnoc(head + "_" + a + "_" + e, '_', c);
    assert head + "_" + a == head + ['_'] + a;
    assert head + "_" + a + "_" + e == (head + "_" + a) + ['_'] + e;
    assert head + "_" + a + "_" + e + "_" + c == (head + "_" + a + "_" + e) + ['_'] + c;
  }

  /**
   * Encoding a stamp into a GOES file name `<head>_s<digits><tenth>_e<...>_c<...>`
   * and decoding the name gives the stamp back, whatever the other parts say.
   */
  lemma NameRoundTrip(head: string, t: Stamp, tenth: char, e: string, c: string)
    requires ValidStamp(t) && t.year < 10000
    requires tenth != '_' && '_' !in e && '_' !in c
    ensures DecodeName(head + "_" + StartTokenOf(t, tenth) + "_" + e + "_" + c) == Ok(t)
  {
    var sos := StartTokenOf(t, tenth);
    StartTokenHasNoSep(t, tenth);
    ThirdFromLast(head, sos, e, c);
    var name := head + "_" + sos + "_" + e + "_" + c;
    assert StartToken(name) == Ok(sos);
    assert Inner(sos) == TimeToken(t);
    TokenRoundTrip(t);
  }

  /** A name whose third-from-last part does not start with 's' fails the whole decode. */
  lemma DecodeRejectsMissingS(head: string, tok: string, e: string, c: string)
    requires '_' !in tok && '_' !in e && '_' !in c
    requires !StartsWithS(tok)
    ensures DecodeName(head + "_" + tok + "_" + e + "_" + c) == Err(MalformedKey(head + "_" + tok + "_" + e + "_" + c))
  {
    ThirdFromLast(head, tok, e, c);
  }

  /**
   * With a start token in place, the name decodes exactly as its 13 inner
   * characters parse: with TokenAccepted, it decodes iff those are 13 digits
   * within the `%j`, `%H`, `%M` and `%S` ranges.
   */
  lemma DecodeToken(head: string, sos: string, e: string, c: string)
    requires StartsWithS(sos) && '_' !in sos && '_' !in e && '_' !in c
    ensures DecodeName(head + "_" + sos + "_" + e + "_" + c) == ParseTimeToken(Inner(sos))
  {
    ThirdFromLast(head, sos, e, c);
    assert StartToken(head + "_" + sos + "_" + e + "_" + c) == Ok(sos);
  }

  /** A well-formed name whose encoded day, hour, minute or second is out of range fails the decode. */
  lemma DecodeRejectsBadTimestamp(head: string, t: Stamp, tenth: char, e: string, c: string)
    requires FitsToken(t)
    requires t.doy == 0 || t.doy > 366 || t.hour > 23 || t.minute > 59 || t.second > 59
    requires tenth != '_' && '_' !in e && '_' !in c
    ensures DecodeName(head + "_" + StartTokenOf(t, tenth) + "_" + e + "_" + c) == Err(BadTimestamp(TimeToken(t)))
  {
    var sos := StartTokenOf(t, tenth);
    StartTokenHasNoSep(t, tenth);
    DecodeToken(head, sos, e, c);
    assert Inner(sos) == TimeToken(t);
    TokenRejects(t);
  }

  /** A name with no underscore has no third-from-last part. */
  lemma DecodeRejectsShortName(name: string)
    requires '_' !in name
    ensures DecodeName(name) == Err(MalformedKey(name))
  {
    SplitNoSep(name, '_');
  }

  /** The aerosol file of 7 August 2020, 20:00:00 UTC, decodes to day 220 of 2020. */
  lemma DecodeAerosolExample()
    ensures DecodeName("OR_ABI-L2-AOD-M6_G16" + "_" + "s20202202000000" + "_" + "e20202202009000" + "_" + "c20202202014000.nc")
            == Ok(Stamp(2020, 220, 20, 0, 0))
    ensures DateTimeOf(Stamp(2020, 220, 20, 0, 0)) == DateTime(Date(2020, 8, 7), 20, 0, 0)
  {
    var t := Stamp(2020, 220, 20, 0, 0);
    assert IsLeapYear(2020);
    AerosolToken();
    AerosolTailsHaveNoSep("e20202202009000", "c20202202014000.nc");
    NameRoundTrip("OR_ABI-L2-AOD-M6_G16", t, '0', "e20202202009000", "c20202202014000.nc");
    LeapYearDay220();
  }

  lemma AerosolTailsHaveNoSep(e: string, c: string)
    requires e == "e20202202009000" && c == "c20202202014000.nc"
    ensures '_' !in e && '_' !in c
  {
    assert forall k :: 0 <= k < |e| ==> e[k] != '_';
    assert forall k :: 0 <= k < |c| ==> c[k] != '_';
  }

  lemma AerosolToken()
    ensures StartTokenOf(Stamp(2020, 220, 20, 0, 0), '0') == "s20202202000000"
  {
    Pad2020();
    Pad220();
    Pad20();
    Pad00();
    AerosolStartToken(TimeToken(Stamp(2020, 220, 20, 0, 0)));
  }

  lemma AerosolStartToken(tok: string)
    requires tok == "2020" + "220" + "20" + "00" + "00"
    ensures "s" + tok + ['0'] == "s20202202000000"
  {
    assert "s" + ("2020" + "220" + "20" + "00" + "00") + "0" == "s20202202000000";
  }

  lemma Pad2020()
    ensures Pad(2020, 4) == "2020"
  {
    assert DigitChar(0) == '0' && DigitChar(2) == '2';
    assert Pad(2, 1) == "2";
    assert Pad(20, 2) == "2" + "0";
    assert Pad(202, 3) == "20" + "2";
  }

  lemma Pad220()
    ensures Pad(220, 3) == "220"
  {
    assert DigitChar(0) == '0' && DigitChar(2) == '2';
    assert Pad(2, 1) == "2";
    assert Pad(22, 2) == "2" + "2";
  }

  lemma Pad20()
    ensures Pad(20, 2) == "20"
  {
    assert DigitChar(0) == '0' && DigitChar(2) == '2';
    assert Pad(2, 1) == "2";
  }

  lemma Pad00()
    ensures Pad(0, 2) == "00"
  {
    assert DigitChar(0) == '0';
    assert Pad(0, 1) == "0";
  }

  // ---------------------------------------------------------------------------
  // Folder layout
  // ---------------------------------------------------------------------------

  /** `noaa-goes<sat>/<product><sector>`. */
  function ProductFolder(satellite: string, product: string, sector: string): string
  {
    JoinPath("noaa-goes" + satellite, product + sector)
  }

  /** `<product folder>/<year>`, the year written without padding. */
  function YearFolder(productFolder: string, year: nat): (r: string)
    ensures Basename(r) == Decimal(year) && ParseDigits(Basename(r)) == year
  {
    DigitsHaveNoSlash(Decimal(year));
    BasenameOfJoin(productFolder, Decimal(year));
    JoinPath(productFolder, Decimal(year))
  }

  /** `<year folder>/<ddd>`, the day-of-year zero-padded to three digits. */
  function DayFolder(yearFolder: string, day: nat): string
  {
    JoinPath(yearFolder, PadDecimal(day, 3))
  }

  /** The glob pattern that lists the children of a folder. */
  function Children(folder: string): string
  {
    JoinPath(folder, "*")
  }

  lemma DigitsHaveNoSlash(s: string)
    requires AllDigits(s)
    ensures '/' !in s
  {
    assert forall k :: 0 <= k < |s| ==> s[k] != '/';
  }

  /**
   * A day folder is `noaa-goes<sat>/<product><sector>/<year>/<ddd>`: its last
   * component is exactly three digits that spell the day, under the year folder.
   */
  lemma DayFolderLayout(satellite: string, product: string, sector: string, year: nat, day: nat)
    requires 1 <= day <= 366
    ensures var f := DayFolder(YearFolder(ProductFolder(satellite, product, sector), year), day);
      && f == JoinPath(YearFolder(ProductFolder(satellite, product, sector), year), Pad(day, 3))
      && Basename(f) == Pad(day, 3)
      && |Basename(f)| == 3 && ParseDigits(Basename(f)) == day
  {
    var pf := ProductFolder(satellite, product, sector);
    var yf := YearFolder(pf, year);
    assert Pow10(3) == 1000;
    var dd := PadDecimal(day, 3);
    assert dd == Pad(day, 3);
    DigitsHaveNoSlash(dd);
    BasenameOfJoin(yf, dd);
    ParsePad(day, 3);
  }

  /** Python's `list(range(lo, hi + 1))`. */
  function DayRange(lo: nat, hi: nat): (days: seq<nat>)
    ensures |days| == if lo <= hi then hi - lo + 1 else 0
    ensures forall i :: 0 <= i < |days| ==> days[i] == lo + i
    decreases hi + 1 - lo
  {
    if lo > hi then [] else [lo] + DayRange(lo + 1, hi)
  }

  /**
   * The day numbers the listing walks: from the start's day-of-year to the end's,
   * each counted within its own year.
   */
  function ListedDays(start: DateTime, end: DateTime): seq<nat>
    requires ValidDateTime(start) && ValidDateTime(end)
  {
    DayRange(DayOfYear(start.date), DayOfYear(end.date))
  }

  /** A day is listed exactly when it lies between the two day-of-year numbers, inclusive. */
  lemma ListedDaysExact(start: DateTime, end: DateTime, d: nat)
    requires ValidDateTime(start) && ValidDateTime(end)
    ensures d in ListedDays(start, end) <==> DayOfYear(start.date) <= d <= DayOfYear(end.date)
  {
    var days := ListedDays(start, end);
    if DayOfYear(start.date) <= d <= DayOfYear(end.date) {
      assert days[d - DayOfYear(start.date)] == d;
    }
  }

  /**
   * Across a year boundary the listing goes wrong: the day numbers of the end's
   * year are looked up under the start's year folder, and when the end's day
   * number is the smaller one no day is listed at all.
   */
  lemma CrossYearListsNothing(start: DateTime, end: DateTime)
    requires ValidDateTime(start) && ValidDateTime(end)
    requires start.date.year < end.date.year
    requires DayOfYear(end.date) < DayOfYear(start.date)
    ensures ListedDays(start, end) == []
  {
  }
}

=== FILE: remote.dfy ===
/** The public bucket as the anonymous s3fs client sees it. */
module Remote {

  /**
   * A snapshot of the bucket: what each glob pattern lists, in the client's
   * order, and how many bytes each object holds.
   */
  datatype Catalog = Catalog(listing: map<string, seq<string>>, sizes: map<string, nat>)
  {
    /** `aws.glob(pattern)`: a pattern the snapshot does not know lists nothing. */
    function Glob(pattern: string): seq<string>
    {
      if pattern in listing then listing[pattern] else []
    }

    /** `aws.disk_usage(key)`: an object the snapshot does not know holds no bytes. */
    function SizeOf(key: string): nat
    {
      if key in sizes then sizes[key] else 0
    }
  }
}

=== FILE: text.dfy ===
/** Decimal digits, splitting on a separator, path basenames and Python's string order. */
module Text {

  // ---------------------------------------------------------------------------
  // Decimal digits
  // ---------------------------------------------------------------------------

  predicate IsDigit(c: char) { '0' <= c <= '9' }

  predicate AllDigits(s: string) { forall i :: 0 <= i < |s| ==> IsDigit(s[i]) }

  function DigitChar(d: nat): (c: char)
    requires d < 10
    ensures IsDigit(c) && c as int - '0' as int == d
  {
    "0123456789"[d]
  }

  function DigitValue(c: char): nat
    requires IsDigit(c)
  {
    c as int - '0' as int
  }

  function Pow10(n: nat): (r: nat)
    ensures r >= 1
  {
    if n == 0 then 1 else 10 * Pow10(n - 1)
  }

  /** The low `w` decimal digits of `n`, most significant first, left-padded with '0'. */
  function Pad(n: nat, w: nat): (r: string)
    ensures |r| == w && AllDigits(r)
  {
    if w == 0 then [] else Pad(n / 10, w - 1) + [DigitChar(n % 10)]
  }

  /** The number a string of decimal digits spells (Python's `int` on such a string). */
  function ParseDigits(s: string): nat
    requires AllDigits(s)
  {
    if s == [] then 0 else 10 * ParseDigits(s[..|s| - 1]) + DigitValue(s[|s| - 1])
  }

  lemma {:induction false} ParsePad(n: nat, w: nat)
    requires n < Pow10(w)
    ensures ParseDigits(Pad(n, w)) == n
  {
    if w > 0 {
      var p := Pad(n, w);
      assert p[..|p| - 1] == Pad(n / 10, w - 1);
      ParsePad(n / 10, w - 1);
    }
  }

  /** The `w`-digit padding of any number spells its low `w` digits, `n % 10^w`. */
  lemma {:induction false} PadLowDigits(n: nat, w: nat)
    ensures ParseDigits(Pad(n, w)) == n % Pow10(w)
  {
    if w > 0 {
      var p := Pad(n, w);
      assert p[..|p| - 1] == Pad(n / 10, w - 1);
      PadLowDigits(n / 10, w - 1);
      ModOfShift(n, Pow10(w - 1));
    }
  }

  /** Splitting off the last digit: `n % (10m)` is `10 ((n / 10) % m) + n % 10`. */
  lemma ModOfShift(n: nat, m: nat)
    requires m >= 1
    ensures n % (10 * m) == 10 * ((n / 10) % m) + n % 10
  {
    var q := n / 10;
    var a := q / m;
    var b := q % m;
    assert n == 10 * m * a + (10 * b + n % 10);
    assert 0 <= 10 * b + n % 10 < 10 * m;
    ModUnique(n, 10 * m, a, 10 * b + n % 10);
  }

  /** The remainder is the only `r` in [0, m) with `n == m a + r`. */
  lemma ModUnique(n: int, m: int, a: int, r: int)
    requires m >= 1 && 0 <= r < m && n == m * a + r
    ensures n % m == r
  {
    var a' := n / m;
    assert n == m * a' + n % m;
    MulSub(m, a, a');
    if a > a' {
      MulAtLeast(m, a - a');
    } else if a < a' {
      MulAtLeast(m, a' - a);
      MulSub(m, a', a);
    }
  }

  lemma MulSub(m: int, x: int, y: int)
    ensures m * x - m * y == m * (x - y)
  {
  }

  lemma {:induction false} MulAtLeast(m: int, k: int)
    requires m >= 1 && k >= 1
    ensures m * k >= m
    decreases k
  {
    if k > 1 {
      MulAtLeast(m, k - 1);
      MulSub(m, k, 1);
    }
  }

  /** How many digits `str(n)` has. */
  function NumDigits(n: nat): (k: nat)
    ensures k >= 1 && n < Pow10(k)
  {
    if n < 10 then 1 else 1 + NumDigits(n / 10)
  }

  lemma {:induction false} Pow10Monotone(a: nat, b: nat)
    requires a <= b
    ensures Pow10(a) <= Pow10(b)
  {
    if a < b { Pow10Monotone(a, b - 1); }
  }

  /** Python's `f'{n}'` for a natural number: no leading zero, except for zero itself. */
  function Decimal(n: nat): (r: string)
    ensures AllDigits(r) && |r| >= 1 && ParseDigits(r) == n
    ensures n == 0 ==> r == "0"
    ensures n > 0 ==> r[0] != '0'
  {
    ParsePad(n, NumDigits(n));
    LeadingDigit(n);
    Pad(n, NumDigits(n))
  }

  /** The shortest spelling of a positive number starts with a non-zero digit. */
  lemma {:induction false} LeadingDigit(n: nat)
    ensures n > 0 ==> Pad(n, NumDigits(n))[0] != '0'
    ensures n == 0 ==> Pad(n, NumDigits(n)) == "0"
  {
    if n >= 10 {
      LeadingDigit(n / 10);
      var p := Pad(n, NumDigits(n));
      assert p[..|p| - 1] == Pad(n / 10, NumDigits(n / 10));
      assert p[0] == p[..|p| - 1][0];
    }
  }

  /** Python's `f'{n:0wd}'`: at least `w` digits, zero-padded on the left. */
  function PadDecimal(n: nat, w: nat): (r: string)
    ensures AllDigits(r) && |r| >= w && ParseDigits(r) == n
    ensures w >= 1 && n < Pow10(w) ==> r == Pad(n, w)
  {
    var k := if w >= NumDigits(n) then w else NumDigits(n);
    Pow10Monotone(NumDigits(n), k);
    ParsePad(n, k);
    NarrowEnough(n, w);
    Pad(n, k)
  }

  lemma {:induction false} NarrowEnough(n: nat, w: nat)
    ensures w >= 1 && n < Pow10(w) ==> NumDigits(n) <= w
  {
    if n >= 10 && w > 0 {
      assert n < Pow10(w) ==> n / 10 < Pow10(w - 1) && w - 1 >= 1;
      NarrowEnough(n / 10, w - 1);
    }
  }

  // ---------------------------------------------------------------------------
  // str.split(sep) and path components
  // ---------------------------------------------------------------------------

  /** Index of the last `c` in `s`, or -1 when there is none. */
  function LastIndexOf(s: string, c: char): (i: int)
    ensures -1 <= i < |s|
    ensures i >= 0 ==> s[i] == c
    ensures forall k :: i < k < |s| ==> s[k] != c
  {
    if s == [] then -1
    else if s[|s| - 1] == c then |s| - 1
    else LastIndexOf(s[..|s| - 1], c)
  }

  /** Python's `s.split(sep)` for a one-character separator: every occurrence splits. */
  function Split(s: string, sep: char): (parts: seq<string>)
    ensures |parts| >= 1
    ensures forall k :: 0 <= k < |parts| ==> sep !in parts[k]
    decreases |s|
  {
    var i := LastIndexOf(s, sep);
    if i < 0 then [s] else Split(s[..i], sep) + [s[i + 1..]]
  }

  /** Appending a separator and a separator-free piece appends exactly one part. */
  lemma SplitSnoc(a: string, sep: char, b: string)
    requires sep !in b
    ensures Split(a + [sep] + b, sep) == Split(a, sep) + [b]
  {
    var s := a + [sep] + b;
    var i := LastIndexOf(s, sep);
    assert s[|a|] == sep;
    assert forall k :: |a| < k < |s| ==> s[k] == b[k - |a| - 1];
    assert i == |a|;
    assert s[..i] == a;
    assert s[i + 1..] == b;
  }

  lemma SplitNoSep(s: string, sep: char)
    requires sep !in s
    ensures Split(s, sep) == [s]
  {
    assert forall k :: 0 <= k < |s| ==> s[k] in s;
  }

  /** `pathlib.Path(p).name`, equally `p.split('/')[-1]`: the last '/'-separated component. */
  function Basename(path: string): (name: string)
    ensures '/' !in name
  {
    var parts := Split(path, '/');
    parts[|parts| - 1]
  }

  /** `pathlib.Path(dir).joinpath(name)` for a directory held without a trailing '/'. */
  function JoinPath(dir: string, name: string): string
  {
    dir + "/" + name
  }

  /** Joining a name onto any directory gives a path whose basename is that name. */
  lemma BasenameOfJoin(dir: string, name: string)
    requires '/' !in name
    ensures Basename(JoinPath(dir, name)) == name
  {
    assert JoinPath(dir, name) == dir + ['/'] + name;
    SplitSnoc(dir, '/', name);
  }

  // ---------------------------------------------------------------------------
  // Python's string order and list.sort() on strings
  // ---------------------------------------------------------------------------

  /** `a <= b` on Python strings: code point by code point, a proper prefix first. */
  predicate StrLe(a: string, b: string)
  {
    if |a| == 0 then true
    else if |b| == 0 then false
    else if a[0] != b[0] then a[0] < b[0]
    else StrLe(a[1..], b[1..])
  }

  lemma {:induction false} StrLeTotal(a: string, b: string)
    ensures StrLe(a, b) || StrLe(b, a)
  {
    if |a| > 0 && |b| > 0 && a[0] == b[0] { StrLeTotal(a[1..], b[1..]); }
  }

  lemma {:induction false} StrLeTransitive(a: string, b: string, c: string)
    requires StrLe(a, b) && StrLe(b, c)
    ensures StrLe(a, c)
  {
    if |a| > 0 && |b| > 0 && |c| > 0 && a[0] == b[0] == c[0] {
      StrLeTransitive(a[1..], b[1..], c[1..]);
    }
  }

  lemma {:induction false} StrLeAntisymmetric(a: string, b: string)
    requires StrLe(a, b) && StrLe(b, a)
    ensures a == b
  {
    if |a| > 0 && |b| > 0 {
      StrLeAntisymmetric(a[1..], b[1..]);
      assert a == [a[0]] + a[1..] && b == [b[0]] + b[1..];
    }
  }

  predicate StrSorted(s: seq<string>)
  {
    forall i, j :: 0 <= i < j < |s| ==> StrLe(s[i], s[j])
  }

  function InsertStr(x: string, s: seq<string>): (r: seq<string>)
    requires StrSorted(s)
    ensures StrSorted(r) && multiset(r) == multiset(s) + multiset{x}
    ensures |r| == |s| + 1
  {
    if s == [] then [x]
    else if StrLe(x, s[0]) then
      InsertStrFront(x, s);
      [x] + s
    else
      var rest := InsertStr(x, s[1..]);
      InsertStrBehind(x, s, rest);
      [s[0]] + rest
  }

  lemma InsertStrFront(x: string, s: seq<string>)
    requires StrSorted(s) && s != [] && StrLe(x, s[0])
    ensures StrSorted([x] + s)
  {
    forall j | 0 < j < |s| ensures StrLe(x, s[j]) {
      StrLeTransitive(x, s[0], s[j]);
    }
  }

  lemma InsertStrBehind(x: string, s: seq<string>, rest: seq<string>)
    requires StrSorted(s) && s != [] && !StrLe(x, s[0])
    requires StrSorted(rest) && multiset(rest) == multiset(s[1..]) + multiset{x}
    ensures StrSorted([s[0]] + rest) && multiset([s[0]] + rest) == multiset(s) + multiset{x}
  {
    StrLeTotal(x, s[0]);
    forall j | 0 <= j < |rest| ensures StrLe(s[0], rest[j]) {
      assert rest[j] in multiset(rest);
      if rest[j] != x {
        assert rest[j] in multiset(s[1..]);
        var k :| 0 <= k < |s[1..]| && s[1..][k] == rest[j];
        assert s[k + 1] == rest[j];
      }
    }
    assert s == [s[0]] + s[1..];
  }

  /** Python's `list.sort()` on a list of strings, as a value. */
  function SortStrings(s: seq<string>): (r: seq<string>)
    ensures StrSorted(r) && multiset(r) == multiset(s)
  {
    if s == [] then []
    else
      assert s == [s[0]] + s[1..];
      InsertStr(s[0], SortStrings(s[1..]))
  }
}

=== FILE: workplan.dfy ===
/**
 * The workplan: which remote files the query needs, where each one goes on
 * local disk and when it was observed, sorted by that time and cut to the
 * inclusive window [start, end].
 */
module Workplan {
  import opened Wrappers
  import opened Text
  import opened Calendar
  import opened KeyLayout
  import opened Remote

  /** One row: `path2file_aws`, `path2file_local` and the decoded observation time (the index). */
  datatype Entry = Entry(remote: string, local: string, time: Stamp)

  // ---------------------------------------------------------------------------
  // The listing: every hour folder of every listed day, concatenated
  // ---------------------------------------------------------------------------

  /** The names of a day's hour folders: the last path component of each child the day folder lists. */
  function HourNames(c: Catalog, dayFolder: string): (hours: seq<string>)
    ensures |hours| == |c.Glob(Children(dayFolder))|
    ensures forall i :: 0 <= i < |hours| ==> hours[i] == Basename(c.Glob(Children(dayFolder))[i])
  {
    var listed := c.Glob(Children(dayFolder));
    seq(|listed|, i requires 0 <= i < |listed| => Basename(listed[i]))
  }

  /** The pattern the getter globs for one hour folder of a day. */
  function HourPattern(dayFolder: string, hour: string): string
  {
    Children(JoinPath(dayFolder, hour))
  }

  /** The keys listed under the given hour folders of one day, in order. */
  function HourKeys(c: Catalog, dayFolder: string, hours: seq<string>): seq<string>
  {
    if hours == [] then []
    else HourKeys(c, dayFolder, hours[..|hours| - 1]) + c.Glob(HourPattern(dayFolder, hours[|hours| - 1]))
  }

  /** The keys listed under every hour folder of the given days, in order (`files_available`). */
  function ListedKeys(c: Catalog, yearFolder: string, days: seq<nat>): seq<string>
  {
    if days == [] then []
    else
      var day := DayFolder(yearFolder, days[|days| - 1]);
      ListedKeys(c, yearFolder, days[..|days| - 1]) + HourKeys(c, day, HourNames(c, day))
  }

  /** `key` is listed in some hour folder of day `d` under `yearFolder`. */
  ghost predicate ListedUnder(c: Catalog, yearFolder: string, d: nat, key: string)
  {
    var day := DayFolder(yearFolder, d);
    exists h :: h in HourNames(c, day) && key in c.Glob(HourPattern(day, h))
  }

  lemma {:induction false} HourKeysOrigin(c: Catalog, dayFolder: string, hours: seq<string>, key: string)
    ensures key in HourKeys(c, dayFolder, hours) <==> exists h :: h in hours && key in c.Glob(HourPattern(dayFolder, h))
  {
    if hours != [] {
      var init, last := hours[..|hours| - 1], hours[|hours| - 1];
      HourKeysOrigin(c, dayFolder, init, key);
      assert hours == init + [last];
      if key in HourKeys(c, dayFolder, hours) {
        if key !in HourKeys(c, dayFolder, init) { assert last in hours; }
      }
      if h :| h in hours && key in c.Glob(HourPattern(dayFolder, h)) {
        if h != last { assert h in init; }
      }
    }
  }

  /**
   * The listing is day-granular: a key is listed exactly when it lies in some
   * hour folder of some listed day, whatever hours the query asked for.
   */
  lemma {:induction false} ListedKeysOrigin(c: Catalog, yearFolder: string, days: seq<nat>, key: string)
    ensures key in ListedKeys(c, yearFolder, days) <==> exists d :: d in days && ListedUnder(c, yearFolder, d, key)
  {
    if days != [] {
      var init, last := days[..|days| - 1], days[|days| - 1];
      ListedKeysOrigin(c, yearFolder, init, key);
      ListedKeysLast(c, yearFolder, days, key);
      if key in ListedKeys(c, yearFolder, init) {
        var d :| d in init && ListedUnder(c, yearFolder, d, key);
        assert d in days;
      } else if ListedUnder(c, yearFolder, last, key) {
        assert last in days;
      } else {
        assert days == init + [last];
        forall d | d in days ensures !ListedUnder(c, yearFolder, d, key) {
          if d != last { assert d in init; }
        }
      }
    }
  }

  /** The last listed day adds the keys of its own hour folders. */
  lemma ListedKeysLast(c: Catalog, yearFolder: string, days: seq<nat>, key: string)
    requires days != []
    ensures key in ListedKeys(c, yearFolder, days) <==>
      key in ListedKeys(c, yearFolder, days[..|days| - 1]) || ListedUnder(c, yearFolder, days[|days| - 1], key)
  {
    var day := DayFolder(yearFolder, days[|days| - 1]);
    HourKeysOrigin(c, day, HourNames(c, day), key);
  }

  // ---------------------------------------------------------------------------
  // From keys to entries
  // ---------------------------------------------------------------------------

  /** `path2folder_local.joinpath(Path(key).name)`. */
  function LocalPath(folder: string, key: string): (p: string)
    ensures Basename(p) == Basename(key)
  {
    BasenameOfJoin(folder, Basename(key));
    JoinPath(folder, Basename(key))
  }

  /** `workplan[~is_file(path2file_local)]`: the keys whose local file does not exist yet, in order. */
  function Fresh(keys: seq<string>, folder: string, local: set<string>): (r: seq<string>)
    ensures forall k :: k in r <==> k in keys && LocalPath(folder, k) !in local
  {
    if keys == [] then []
    else
      var rest := Fresh(keys[1..], folder, local);
      assert forall k :: k in keys <==> k == keys[0] || k in keys[1..];
      if LocalPath(folder, keys[0]) in local then rest else [keys[0]] + rest
  }

  /** `Fresh` is a filter: a kept key occurs as often as in the listing, a dropped one not at all. */
  lemma {:induction false} FreshCounts(keys: seq<string>, folder: string, local: set<string>, k: string)
    ensures multiset(Fresh(keys, folder, local))[k] == if LocalPath(folder, k) in local then 0 else multiset(keys)[k]
  {
    if keys != [] {
      FreshCounts(keys[1..], folder, local, k);
      assert keys == [keys[0]] + keys[1..];
    }
  }

  /**
   * `row2timestamp` on every row, in order: one key that does not decode makes
   * the whole build fail. The file-name decoder is a parameter; the build
   * passes `DecodeName`.
   */
  function DecodeAll(keys: seq<string>, folder: string, decode: string -> Result<Stamp>): (r: Result<seq<Entry>>)
    ensures r.Ok? <==> forall i :: 0 <= i < |keys| ==> decode(Basename(keys[i])).Ok?
    ensures r.Ok? ==> |r.value| == |keys|
    ensures r.Ok? ==> forall i :: 0 <= i < |keys| ==>
      r.value[i] == Entry(keys[i], LocalPath(folder, keys[i]), decode(Basename(keys[i])).value)
  {
    if keys == [] then Ok([])
    else
      match decode(Basename(keys[0]))
      case Err(e) => Err(e)
      case Ok(t) =>
        match DecodeAll(keys[1..], folder, decode)
        case Err(e) => Err(e)
        case Ok(rest) => Ok([Entry(keys[0], LocalPath(folder, keys[0]), t)] + rest)
  }

  // ---------------------------------------------------------------------------
  // sort_index and truncate
  // ---------------------------------------------------------------------------

  predicate Sorted(es: seq<Entry>)
  {
    forall i, j :: 0 <= i < j < |es| ==> StampLe(es[i].time, es[j].time)
  }

  function Insert(e: Entry, es: seq<Entry>): (r: seq<Entry>)
    requires Sorted(es)
    ensures Sorted(r) && multiset(r) == multiset(es) + multiset{e}
  {
    if es == [] then [e]
    else if StampLe(e.time, es[0].time) then
      InsertFront(e, es);
      [e] + es
    else
      var rest := Insert(e, es[1..]);
      InsertBehind(e, es, rest);
      [es[0]] + rest
  }

  /** A row no later than the first of a sorted sequence can go in front of it. */
  lemma InsertFront(e: Entry, es: seq<Entry>)
    requires Sorted(es) && es != [] && StampLe(e.time, es[0].time)
    ensures Sorted([e] + es)
  {
    forall j | 0 <= j < |es| ensures StampLe(e.time, es[j].time) {
      if j > 0 { StampLeTransitive(e.time, es[0].time, es[j].time); }
    }
  }

  /** A row later than the head goes into the tail; the head stays in front. */
  lemma InsertBehind(e: Entry, es: seq<Entry>, rest: seq<Entry>)
    requires Sorted(es) && es != [] && !StampLe(e.time, es[0].time)
    requires Sorted(rest) && multiset(rest) == multiset(es[1..]) + multiset{e}
    ensures Sorted([es[0]] + rest) && multiset([es[0]] + rest) == multiset(es) + multiset{e}
  {
    StampLeTotal(e.time, es[0].time);
    forall j | 0 <= j < |rest| ensures StampLe(es[0].time, rest[j].time) {
      assert rest[j] in multiset(rest);
      if rest[j] != e {
        assert rest[j] in multiset(es[1..]);
        var k :| 0 <= k < |es[1..]| && es[1..][k] == rest[j];
        assert es[k + 1] == rest[j];
      }
    }
    assert es == [es[0]] + es[1..];
  }

  /** `sort_index()`: the same rows, ascending by observation time. */
  function SortByTime(es: seq<Entry>): (r: seq<Entry>)
    ensures Sorted(r) && multiset(r) == multiset(es)
  {
    if es == [] then []
    else
      assert es == [es[0]] + es[1..];
      Insert(es[0], SortByTime(es[1..]))
  }

  predicate InWindow(t: Stamp, lo: Stamp, hi: Stamp)
  {
    StampLe(lo, t) && StampLe(t, hi)
  }

  /** The rows whose time lies in [lo, hi], in their order. */
  function Window(es: seq<Entry>, lo: Stamp, hi: Stamp): (r: seq<Entry>)
    ensures forall e :: e in r <==> e in es && InWindow(e.time, lo, hi)
    ensures Sorted(es) ==> Sorted(r)
  {
    if es == [] then []
    else
      var rest := Window(es[1..], lo, hi);
      assert forall e :: e in es <==> e == es[0] || e in es[1..];
      if !InWindow(es[0].time, lo, hi) then rest
      else
        assert Sorted(es) ==> forall j :: 0 <= j < |rest| ==> StampLe(es[0].time, rest[j].time) by {
          if Sorted(es) {
            forall j | 0 <= j < |rest| ensures StampLe(es[0].time, rest[j].time) {
              assert rest[j] in es[1..];
              var k :| 0 <= k < |es[1..]| && es[1..][k] == rest[j];
              assert es[k + 1] == rest[j];
            }
          }
        }
        [es[0]] + rest
  }

  /** `Window` is a filter: a row in the window occurs as often as in the input, any other row not at all. */
  lemma {:induction false} WindowCounts(es: seq<Entry>, lo: Stamp, hi: Stamp, e: Entry)
    ensures multiset(Window(es, lo, hi))[e] == if InWindow(e.time, lo, hi) then multiset(es)[e] else 0
  {
    if es != [] {
      WindowCounts(es[1..], lo, hi, e);
      assert es == [es[0]] + es[1..];
    }
  }

  /** `truncate(start, end)` on the sorted rows: start after end is an error. */
  function Truncate(es: seq<Entry>, lo: Stamp, hi: Stamp): (r: Result<seq<Entry>>)
    ensures r.Err? <==> StampLt(hi, lo)
    ensures r.Err? ==> r.error == BadRange
    ensures r.Ok? ==> forall e :: e in r.value <==> e in es && InWindow(e.time, lo, hi)
    ensures r.Ok? && Sorted(es) ==> Sorted(r.value)
  {
    if StampLt(hi, lo) then Err(BadRange) else Ok(Window(es, lo, hi))
  }

  /**
   * The plan built from the listed keys: local paths, existing files dropped,
   * times decoded, sorted, truncated to [lo, hi]. The decoder is a
   * parameter, so what is proved below holds for any `row2timestamp`; the
   * getter passes `DecodeName`.
   */
  function BuildPlan(keys: seq<string>, folder: string, local: set<string>, lo: Stamp, hi: Stamp, decode: string -> Result<Stamp>): Result<seq<Entry>>
  {
    match DecodeAll(Fresh(keys, folder, local), folder, decode)
    case Err(e) => Err(e)
    case Ok(es) => Truncate(SortByTime(es), lo, hi)
  }

  // ---------------------------------------------------------------------------
  // What a built plan promises
  // ---------------------------------------------------------------------------

  /** Every key that survives deduplication decodes and is at its place in the decoded rows. */
  lemma DecodedEntry(keys: seq<string>, folder: string, local: set<string>, decode: string -> Result<Stamp>, e: Entry)
    requires DecodeAll(Fresh(keys, folder, local), folder, decode).Ok?
    ensures e in DecodeAll(Fresh(keys, folder, local), folder, decode).value <==>
      && e.remote in keys
      && LocalPath(folder, e.remote) !in local
      && e.local == LocalPath(folder, e.remote)
      && decode(Basename(e.remote)) == Ok(e.time)
  {
    var kept := Fresh(keys, folder, local);
    var es := DecodeAll(kept, folder, decode).value;
    if e in es {
      var i :| 0 <= i < |es| && es[i] == e;
      assert kept[i] in kept;
    }
    if e.remote in keys && LocalPath(folder, e.remote) !in local
       && e.local == LocalPath(folder, e.remote) && decode(Basename(e.remote)) == Ok(e.time) {
      var i :| 0 <= i < |kept| && kept[i] == e.remote;
      assert es[i] == e;
    }
  }

  /**
   * Soundness of a built plan: sorted by time; every row comes from a listed
   * key, has no local file yet, keeps the key's file name under the local
   * folder, carries the key's decoded time, and lies in [lo, hi].
   */
  lemma PlanSound(keys: seq<string>, folder: string, local: set<string>, lo: Stamp, hi: Stamp, decode: string -> Result<Stamp>)
    requires BuildPlan(keys, folder, local, lo, hi, decode).Ok?
    ensures var plan := BuildPlan(keys, folder, local, lo, hi, decode).value;
      && Sorted(plan)
      && forall e :: e in plan ==>
        && e.remote in keys
        && e.local == LocalPath(folder, e.remote)
        && Basename(e.local) == Basename(e.remote)
        && e.local !in local
        && decode(Basename(e.remote)) == Ok(e.time)
        && StampLe(lo, e.time) && StampLe(e.time, hi)
  {
    var es := DecodeAll(Fresh(keys, folder, local), folder, decode).value;
    var sorted := SortByTime(es);
    var plan := BuildPlan(keys, folder, local, lo, hi, decode).value;
    assert plan == Window(sorted, lo, hi);
    forall e | e in plan
      ensures e.remote in keys && e.local == LocalPath(folder, e.remote) && e.local !in local
      ensures decode(Basename(e.remote)) == Ok(e.time)
    {
      assert e in multiset(sorted);
      assert e in es;
      DecodedEntry(keys, folder, local, decode, e);
    }
  }

  /**
   * Completeness of a built plan: every listed key with no local file, a
   * decodable name and a time in [lo, hi] is in it.
   */
  lemma PlanComplete(keys: seq<string>, folder: string, local: set<string>, lo: Stamp, hi: Stamp, decode: string -> Result<Stamp>, key: string, t: Stamp)
    requires BuildPlan(keys, folder, local, lo, hi, decode).Ok?
    requires key in keys && LocalPath(folder, key) !in local
    requires decode(Basename(key)) == Ok(t) && StampLe(lo, t) && StampLe(t, hi)
    ensures Entry(key, LocalPath(folder, key), t) in BuildPlan(keys, folder, local, lo, hi, decode).value
  {
    var e := Entry(key, LocalPath(folder, key), t);
    var es := DecodeAll(Fresh(keys, folder, local), folder, decode).value;
    DecodedEntry(keys, folder, local, decode, e);
    assert e in es;
    var sorted := SortByTime(es);
    assert e in multiset(sorted);
    assert e in sorted;
    assert BuildPlan(keys, folder, local, lo, hi, decode).value == Window(sorted, lo, hi);
  }

  /**
   * Fail-fast: the build fails exactly when a key that survives deduplication
   * does not decode, or when the window is reversed; no partial plan is returned.
   */
  lemma PlanFailsFast(keys: seq<string>, folder: string, local: set<string>, lo: Stamp, hi: Stamp, decode: string -> Result<Stamp>)
    ensures BuildPlan(keys, folder, local, lo, hi, decode).Err? <==>
      (exists k :: k in keys && LocalPath(folder, k) !in local && decode(Basename(k)).Err?)
      || StampLt(hi, lo)
  {
    var kept := Fresh(keys, folder, local);
    if k :| k in keys && LocalPath(folder, k) !in local && decode(Basename(k)).Err? {
      var i :| 0 <= i < |kept| && kept[i] == k;
    }
    if DecodeAll(kept, folder, decode).Err? {
      var i :| 0 <= i < |kept| && decode(Basename(kept[i])).Err?;
      assert kept[i] in kept;
    }
  }

  /**
   * Deduplication is against the local disk only: a listed, decodable,
   * in-window key is left out while its local file exists, and comes back
   * once that file is removed.
   */
  lemma LocalFileHidesEntry(keys: seq<string>, folder: string, local: set<string>, lo: Stamp, hi: Stamp, decode: string -> Result<Stamp>, key: string, t: Stamp)
    requires key in keys && decode(Basename(key)) == Ok(t) && StampLe(lo, t) && StampLe(t, hi)
    requires LocalPath(folder, key) in local
    requires BuildPlan(keys, folder, local, lo, hi, decode).Ok?
    ensures forall e :: e in BuildPlan(keys, folder, local, lo, hi, decode).value ==> e.local != LocalPath(folder, key)
    ensures BuildPlan(keys, folder, local - {LocalPath(folder, key)}, lo, hi, decode).Ok?
    ensures Entry(key, LocalPath(folder, key), t) in BuildPlan(keys, folder, local - {LocalPath(folder, key)}, lo, hi, decode).value
  {
    assert forall e :: e in BuildPlan(keys, folder, local, lo, hi, decode).value ==> e.local != LocalPath(folder, key) by {
      PlanSound(keys, folder, local, lo, hi, decode);
    }
    var smaller := local - {LocalPath(folder, key)};
    RemovingFileKeepsBuild(keys, folder, local, lo, hi, decode, key, t);
    PlanComplete(keys, folder, smaller, lo, hi, decode, key, t);
  }

  /** Removing the local file of a decodable key cannot make the build fail. */
  lemma RemovingFileKeepsBuild(keys: seq<string>, folder: string, local: set<string>, lo: Stamp, hi: Stamp, decode: string -> Result<Stamp>, key: string, t: Stamp)
    requires BuildPlan(keys, folder, local, lo, hi, decode).Ok? && decode(Basename(key)) == Ok(t)
    ensures BuildPlan(keys, folder, local - {LocalPath(folder, key)}, lo, hi, decode).Ok?
  {
    var smaller := local - {LocalPath(folder, key)};
    PlanFailsFast(keys, folder, local, lo, hi, decode);
    assert !StampLt(hi, lo);
    assert forall k :: k in keys && LocalPath(folder, k) !in local ==> decode(Basename(k)).Ok?;
    forall k | k in keys && LocalPath(folder, k) !in smaller ensures decode(Basename(k)).Ok? {
      if LocalPath(folder, k) == LocalPath(folder, key) {
        assert Basename(k) == Basename(key);
      }
    }
    PlanFailsFast(keys, folder, smaller, lo, hi, decode);
  }

  // ---------------------------------------------------------------------------
  // The whole build, from the query's settings
  // ---------------------------------------------------------------------------

  /** `files_available`: every key under every hour folder of every listed day, under the start's year. */
  function QueryKeys(c: Catalog, satellite: string, product: string, sector: string, start: DateTime, end: DateTime): seq<string>
    requires ValidDateTime(start) && ValidDateTime(end)
  {
    ListedKeys(c, YearFolder(ProductFolder(satellite, product, sector), start.date.year), ListedDays(start, end))
  }

  /** The `workplan` getter's result when nothing is cached yet. */
  function BuildWorkplan(c: Catalog, satellite: string, product: string, sector: string, folder: string,
                         local: set<string>, start: DateTime, end: DateTime): Result<seq<Entry>>
    requires ValidDateTime(start) && ValidDateTime(end)
  {
    BuildPlan(QueryKeys(c, satellite, product, sector, start, end), folder, local, StampOf(start), StampOf(end), DecodeName)
  }

  /**
   * The getter's promise: every row of a built workplan was listed in an hour
   * folder of a day between the start's and the end's day-of-year, under the
   * start's year folder, and its observation time lies between start and end.
   */
  lemma WorkplanSound(c: Catalog, satellite: string, product: string, sector: string, folder: string,
                      local: set<string>, start: DateTime, end: DateTime, e: Entry)
    requires ValidDateTime(start) && ValidDateTime(end)
    requires BuildWorkplan(c, satellite, product, sector, folder, local, start, end).Ok?
    requires e in BuildWorkplan(c, satellite, product, sector, folder, local, start, end).value
    ensures exists d :: (DayOfYear(start.date) <= d <= DayOfYear(end.date)
      && ListedUnder(c, YearFolder(ProductFolder(satellite, product, sector), start.date.year), d, e.remote))
    ensures StampLe(StampOf(start), e.time) && StampLe(e.time, StampOf(end))
    ensures e.local !in local && Basename(e.local) == Basename(e.remote)
  {
    var keys := QueryKeys(c, satellite, product, sector, start, end);
    var yf := YearFolder(ProductFolder(satellite, product, sector), start.date.year);
    PlanSound(keys, folder, local, StampOf(start), StampOf(end), DecodeName);
    ListedKeysOrigin(c, yf, ListedDays(start, end), e.remote);
    var d :| d in ListedDays(start, end) && ListedUnder(c, yf, d, e.remote);
    ListedDaysExact(start, end, d);
  }

  /** The bounds of a built workplan in timestamp order: every row lies between start and end. */
  lemma WorkplanWithinWindow(c: Catalog, satellite: string, product: string, sector: string, folder: string,
                             local: set<string>, start: DateTime, end: DateTime, e: Entry)
    requires ValidDateTime(start) && ValidDateTime(end)
    requires BuildWorkplan(c, satellite, product, sector, folder, local, start, end).Ok?
    requires e in BuildWorkplan(c, satellite, product, sector, folder, local, start, end).value
    ensures ValidStamp(e.time)
    ensures DateTimeLe(start, DateTimeOf(e.time)) && DateTimeLe(DateTimeOf(e.time), end)
  {
    var keys := QueryKeys(c, satellite, product, sector, start, end);
    PlanSound(keys, folder, local, StampOf(start), StampOf(end), DecodeName);
    assert DecodeName(Basename(e.remote)) == Ok(e.time);
    var t := DateTimeOf(e.time);
    StampOfOrder(start, t);
    StampOfOrder(t, end);
  }
}

=== FILE: wrappers.dfy ===
/** Option and Result, and the ways a call into the query engine can fail. */
module Wrappers {

  datatype Option<+T> = None | Some(value: T)

  datatype Result<+T> = Ok(value: T) | Err(error: Error)

  /** The failures the engine can raise, one per Python exception site. */
  datatype Error =
    | EmptyName                 // `value[-1]` on an empty product name (IndexError)
    | MalformedKey(name: string) // `split('_')[-3]` out of range or a token not starting with 's'
    | BadTimestamp(token: string) // `to_datetime(..., format='%Y%j%H%M%S')` rejects the token
    | BadRange                  // `DataFrame.truncate` with start after end (ValueError)
    | ZeroSampleSize            // `N / sample_size` with sample_size == 0 (ZeroDivisionError)
    | LowDiskSpace              // the 90 % assertion in `download`
    | NothingFetched            // `return out` with `out` never bound (UnboundLocalError)
    | NoYearFolder              // `years.pop(0)` on an exhausted list (IndexError)
    | NoDayFolder               // `days[0]` on an empty list (IndexError)
    | BadNumber(text: string)   // `int(...)` / `to_datetime(...)` on a folder name that is not a number
}
